=== FILE: README.md ===
# ApiChanger mutation engine, modelled in Dafny

This project models the mutation engine of the ContinuITy API-evolution experiment, the class
`ApiChanger`. The engine takes an HTTP system model (interfaces with their parameters) and its
annotation graph (interface annotations, parameter annotations and the inputs they share). It
applies a random plan of API edits to them and cuts the plan into 18 numbered version snapshots:

- ADD_INTERFACE, ADD_PARAMETER, CHANGE_INTERFACE_PATH, CHANGE_PARAMETER_NAME, REMOVE_INTERFACE and
  REMOVE_PARAMETER are pure transitions `State -> Result<State, Error>` (module `Changer`).
- `Allocator` models the collision-free allocation of ids and paths (`createNewId`,
  `createNewPath`), both as functions and as the original counting loop.
- `Annotations` models the annotation side: cloning of inputs and annotations, adding and removing
  the extractions that read from an interface, and pruning inputs no parameter annotation uses.
- `Model` holds the data model, the exclusion filter `isIncluded`, the lookups by id and the
  used-id and used-path sets.
- `Versions` models `addChanges`: the group sizes, the flat plan and the snapshot boundaries.
  The run is a fold of a step function over the plan, and the step function is instantiated
  with the engine's `ApplyChange`.
- `Invariants` proves what every edit preserves. Interface paths stay distinct. The interfaces
  of the loaded base model are never removed. The ADD_PARAMETER registry only grows.

Java object references become id strings. An element is located by the first element carrying
its id. Every random choice is an explicit draw `d`, and a draw picks position `d % n` of an
n-element candidate list, the way `Random.nextInt(n)` does. A Java exception that ends the run
becomes an `Error`:

- `EmptySelection` is `nextInt(0)` on an empty candidate list.
- `NullDereference` is a lookup that returned null and was then used.
- `NoSuchElement` is `Optional.get` on an empty stream.

Three behaviours of the code differ from what a reader of the engine might expect. The model
follows the code in each case:

- One might expect the REMOVE edits to touch only elements the engine itself added. In the code,
  ADD_PARAMETER registers the ORIGINAL (interface, parameter) pair, so a later REMOVE_PARAMETER
  that picks the entry removes the original parameter and keeps the clone.
  `Invariants.RemoveParameterTakesOriginal` states this. Registry entries are also never dropped.
- One might expect an input of an unknown variant to be skipped when it is cloned, since a
  warning is logged. The code then dereferences null (line 422), so the model ends the run with
  `NullDereference`.
- The ids of the parameters of a cloned interface are allocated against the graphs as they stood
  before the clone is inserted. They are fresh with respect to the graphs, but not with respect
  to one another. `Changer.CloneInterface` promises no more than that.

## Model

| member | source | states |
|---|---|---|
| Allocator.FirstFreeIndex | continuity.experimentation.experiment/src/main/java/org/continuity/experimentation/experiment/apichanger/ApiChanger.java:440-443 | the counting loop stops: some counter k' >= k gives an unused candidate, and every counter in [k, k') gives a used one |
| Allocator.CandidatesDistinct | continuity.experimentation.experiment/src/main/java/org/continuity/experimentation/experiment/apichanger/ApiChanger.java:442 | distinct counter values give distinct candidate names, which is why the loop terminates on a finite used set |
| Allocator.FreshNameIsSmallestFree | continuity.experimentation.experiment/src/main/java/org/continuity/experimentation/experiment/apichanger/ApiChanger.java:435-446 | when the initial name is taken, the result is the candidate for counter k exactly when k >= 2 is the smallest counter whose candidate is free |
| Allocator.NewId | continuity.experimentation.experiment/src/main/java/org/continuity/experimentation/experiment/apichanger/ApiChanger.java:435-446 | createNewId returns an id not in use: the initial id when it is free, and otherwise the initial id followed by "_" and some counter k >= 2 |
| Allocator.NewPath | continuity.experimentation.experiment/src/main/java/org/continuity/experimentation/experiment/apichanger/ApiChanger.java:463-474 | createNewPath returns a path not in use: the initial path when it is free, and otherwise the initial path followed directly by some counter k >= 2 |
| Allocator.Disambiguate | continuity.experimentation.experiment/src/main/java/org/continuity/experimentation/experiment/apichanger/ApiChanger.java:437-445 | the while loop as written terminates with an unused name: the initial name if free, otherwise initial + separator + k for some k >= 2, and the same name as the functional definition |
| Allocator.CreateNewId | continuity.experimentation.experiment/src/main/java/org/continuity/experimentation/experiment/apichanger/ApiChanger.java:435-446 | the loop with the "_" separator returns an unused id, the initial one when free, and agrees with NewId |
| Allocator.CreateNewPath | continuity.experimentation.experiment/src/main/java/org/continuity/experimentation/experiment/apichanger/ApiChanger.java:463-474 | the loop with no separator returns an unused path, the initial one when free, and agrees with NewPath |
| Model.IsIncluded | continuity.experimentation.experiment/src/main/java/org/continuity/experimentation/experiment/apichanger/ApiChanger.java:280-288 | an element is excluded exactly when its id is present and matches one of the exclusion patterns |
| Model.UsedPaths | continuity.experimentation.experiment/src/main/java/org/continuity/experimentation/experiment/apichanger/ApiChanger.java:476-478 | a path is used exactly when some interface of the model carries it |
| Model.FindInterface | continuity.experimentation.experiment/src/main/java/org/continuity/experimentation/experiment/apichanger/ApiChanger.java:315 | the lookup finds an interface with the id and fails exactly when no interface has it |
| Model.FindInterfaceAnn | continuity.experimentation.experiment/src/main/java/org/continuity/experimentation/experiment/apichanger/ApiChanger.java:290-298 | the first interface annotation referring to the interface id, or none when no annotation refers to it |
| Model.FindParamAnn | continuity.experimentation.experiment/src/main/java/org/continuity/experimentation/experiment/apichanger/ApiChanger.java:300-308 | the first parameter annotation of the interface annotation referring to the parameter id, or none when none refers to it |
| Annotations.RefCountZeroIff | continuity.experimentation.experiment/src/main/java/org/continuity/experimentation/experiment/apichanger/ApiChanger.java:427-428 | the count of parameter annotations using an input is zero exactly when no parameter annotation of any interface annotation uses it |
| Annotations.RemoveInputIfUnused | continuity.experimentation.experiment/src/main/java/org/continuity/experimentation/experiment/apichanger/ApiChanger.java:426-433 | an input that is still referenced, or absent, leaves the annotation unchanged; an unreferenced present input is removed at one position carrying its id; interface annotations are untouched and no input is added; with distinct input ids, an unreferenced input's id is gone afterwards and the ids stay distinct |
| Annotations.PruneInputs | continuity.experimentation.experiment/src/main/java/org/continuity/experimentation/experiment/apichanger/ApiChanger.java:204 | an input leaves only if its id is one of the pruned ids and no parameter annotation uses it any more; conversely, with distinct input ids, no pruned id that nothing uses keeps an input; interface annotations are untouched and no input is added |
| Annotations.Repoint | continuity.experimentation.experiment/src/main/java/org/continuity/experimentation/experiment/apichanger/ApiChanger.java:358-364 | the new extraction reads from the new interface, takes the original's response key as its template, and copies every other field |
| Annotations.NewExtractionsContent | continuity.experimentation.experiment/src/main/java/org/continuity/experimentation/experiment/apichanger/ApiChanger.java:352-367 | an extraction is among the new ones exactly when it is the repointed copy of an extraction reading from the original interface |
| Annotations.AddToExtractedInputs | continuity.experimentation.experiment/src/main/java/org/continuity/experimentation/experiment/apichanger/ApiChanger.java:351-369 | every extracted input keeps its extractions as a prefix and gains the repointed copies after them; other inputs, ids and initial values are unchanged |
| Annotations.KeepNotFrom | continuity.experimentation.experiment/src/main/java/org/continuity/experimentation/experiment/apichanger/ApiChanger.java:376-379 | an extraction survives exactly when it was present and does not read from the removed interface |
| Annotations.RemoveFromExtractedInputs | continuity.experimentation.experiment/src/main/java/org/continuity/experimentation/experiment/apichanger/ApiChanger.java:371-381 | afterwards no extraction reads from the removed interface, every other extraction is kept, and inputs keep their id, variant and initial value |
| Annotations.CloneInput | continuity.experimentation.experiment/src/main/java/org/continuity/experimentation/experiment/apichanger/ApiChanger.java:383-424 | for a direct, counter or extracted input, the clone is the same variant with the same fields and only the id changed |
| Annotations.CloneParameterAnnotation | continuity.experimentation.experiment/src/main/java/org/continuity/experimentation/experiment/apichanger/ApiChanger.java:331-349 | an excluded input is shared and nothing else changes; an included one is cloned under the id createNewId derives from `<input>_CLONE`, which no element uses, and appended to the inputs; an input of unknown variant ends the run |
| Annotations.OriginalParamAnn | continuity.experimentation.experiment/src/main/java/org/continuity/experimentation/experiment/apichanger/ApiChanger.java:315-321 | the original interface is resolved (else a null dereference), its first parameter with the new parameter's name is taken (none ends the run as an empty Optional), and that parameter's annotation in the original interface annotation is returned (none is a null dereference) |
| Annotations.CloneParamAnnFor | continuity.experimentation.experiment/src/main/java/org/continuity/experimentation/experiment/apichanger/ApiChanger.java:318-324 | one loop iteration fails with the lookup's error, or is exactly cloneParameterAnnotation of the original annotation for the new parameter: same overrides, the input shared when excluded and a fresh one otherwise; inputs are only appended |
| Annotations.CloneParamAnns | continuity.experimentation.experiment/src/main/java/org/continuity/experimentation/experiment/apichanger/ApiChanger.java:316-327 | the loop stops at the first failing iteration; on success it yields one annotation per new parameter in order, each the clone of its same-named original's annotation; it only appends inputs, and the appended inputs are exactly the clones made for the new annotations whose original input is included: each such annotation's input id names one, holding the contents of the original input it resolved to, and every appended input is one of these |
| Annotations.CloneParamAnnsOutcome | continuity.experimentation.experiment/src/main/java/org/continuity/experimentation/experiment/apichanger/ApiChanger.java:316-327 | the loop succeeds whenever every new parameter would clone on its own against the inputs before the loop; when every original input resolves it succeeds only then, and a failing loop fails with the error of the first parameter that does not clone |
| Annotations.CloneInterfaceAnnotation | continuity.experimentation.experiment/src/main/java/org/continuity/experimentation/experiment/apichanger/ApiChanger.java:310-329 | the clone refers to the new interface, copies the overrides, and holds for each new parameter, in order, the clone of its same-named original's annotation; existing inputs stay as a prefix and the inputs appended after them are exactly the clones of the included original inputs, under the new annotations' input ids; it succeeds when every new parameter clones on its own, only then when the original inputs resolve, and otherwise fails with the first failing parameter's error |
| Changer.Pick | continuity.experimentation.experiment/src/main/java/org/continuity/experimentation/experiment/apichanger/ApiChanger.java:247-250 | a draw on a non-empty list selects a valid position |
| Changer.AllSlots | continuity.experimentation.experiment/src/main/java/org/continuity/experimentation/experiment/apichanger/ApiChanger.java:158-159 | the candidate list is exactly the positions whose parameter passes the filter, each once, in interface-then-parameter order; it is empty exactly when no parameter passes |
| Changer.CloneParameter | continuity.experimentation.experiment/src/main/java/org/continuity/experimentation/experiment/apichanger/ApiChanger.java:272-278 | the clone's id is the one createNewId derives from `<id>_CLONE`, so no element uses it; name and type are the original's |
| Changer.CloneInterface | continuity.experimentation.experiment/src/main/java/org/continuity/experimentation/experiment/apichanger/ApiChanger.java:252-270 | the clone's id comes from `<id>_CLONE` and its path from `<path>/clone` through createNewId and createNewPath, so both are unused; each parameter keeps its name and type under the id derived from `<newId>_<paramId>`; all other fields are copied |
| Changer.AddClonedAnnotation | continuity.experimentation.experiment/src/main/java/org/continuity/experimentation/experiment/apichanger/ApiChanger.java:146-149 | without an annotation of the original nothing changes; otherwise it succeeds exactly when cloneInterfaceAnnotation of the original's first annotation does, fails with its error, and appends exactly that clone with exactly the inputs the cloning leaves |
| Changer.ApplyAddInterface | continuity.experimentation.experiment/src/main/java/org/continuity/experimentation/experiment/apichanger/ApiChanger.java:139-156 | fails on an empty model; otherwise succeeds exactly when the annotation clone does (failing with its error), appends exactly the clone of the picked interface, registers it as added, takes the annotations from the annotation clone and its inputs with extractions repointed to the new interface, leaves the parameter registry alone and logs one template copy from the picked original |
| Changer.WithClonedParameter | continuity.experimentation.experiment/src/main/java/org/continuity/experimentation/experiment/apichanger/ApiChanger.java:161-165 | the chosen parameter's interface gains one parameter with the id allocated from `<id>_CLONE`, which is fresh, the original's type and the name suffixed "Clone"; the registry gains the original pair |
| Changer.ApplyAddParameter | continuity.experimentation.experiment/src/main/java/org/continuity/experimentation/experiment/apichanger/ApiChanger.java:157-172 | fails with an empty selection exactly when every parameter is excluded; on success the included parameter at the drawn position of the candidate list was cloned in place as WithClonedParameter describes, and its annotation was cloned into the first annotation of its interface as AddParameterAnnotation describes; when a candidate exists it succeeds exactly when that annotation step succeeds on the drawn parameter, and fails with its error otherwise |
| Changer.AddParameterAnnotation | continuity.experimentation.experiment/src/main/java/org/continuity/experimentation/experiment/apichanger/ApiChanger.java:166-170 | a missing interface or parameter annotation is a null dereference; otherwise the step succeeds exactly when cloneParameterAnnotation does, fails with its error, and on success the first annotation of the interface gains, at its end, that clone for the new parameter, no other interface annotation changes, and the system model and registries stay as they were |
| Changer.ApplyChangeInterfacePath | continuity.experimentation.experiment/src/main/java/org/continuity/experimentation/experiment/apichanger/ApiChanger.java:173-180 | fails exactly on an empty model; otherwise the picked interface gets the path createNewPath derives from `<path>/changed`, which no interface used, and nothing else changes |
| Changer.ApplyChangeParameterName | continuity.experimentation.experiment/src/main/java/org/continuity/experimentation/experiment/apichanger/ApiChanger.java:181-190 | fails exactly when no parameter is both included and not a URL part; otherwise the candidate at the drawn position of the candidate list is renamed with the "-changed" suffix, and nothing else changes |
| Changer.ApplyRemoveInterface | continuity.experimentation.experiment/src/main/java/org/continuity/experimentation/experiment/apichanger/ApiChanger.java:191-210 | fails exactly on an empty registry; the chosen entry always leaves the registry; an interface no longer in the model changes nothing else; a present interface is removed, and the step fails exactly when it has no annotation; otherwise its first annotation is removed and no other, no extraction reads from it afterwards, an input leaves only if one of the removed annotation's parameter annotations used it and nothing uses it any more, conversely (with distinct input ids) every such input that nothing uses is gone, and one template removal is logged |
| Changer.RemoveInterfaceFacts | continuity.experimentation.experiment/src/main/java/org/continuity/experimentation/experiment/apichanger/ApiChanger.java:195 | removing one interface keeps every interface with another id and adds none |
| Changer.RemoveParameterById | continuity.experimentation.experiment/src/main/java/org/continuity/experimentation/experiment/apichanger/ApiChanger.java:214 | the first parameter with the id is removed, an interface without one is unchanged, and the other fields are kept |
| Changer.RemoveParameterFrom | continuity.experimentation.experiment/src/main/java/org/continuity/experimentation/experiment/apichanger/ApiChanger.java:214 | only the first interface with the id loses the parameter; with no such interface the model is unchanged; no interface changes anything but its parameters |
| Changer.RemoveParameterAnnotation | continuity.experimentation.experiment/src/main/java/org/continuity/experimentation/experiment/apichanger/ApiChanger.java:216-219 | succeeds exactly when the interface's first annotation annotates the parameter; the parameter annotation is removed from it, other annotations are unchanged and no input is added; the result is the annotation without that parameter annotation, with its input then dropped exactly when nothing else references it (RemoveInputIfUnused) |
| Changer.ApplyRemoveParameter | continuity.experimentation.experiment/src/main/java/org/continuity/experimentation/experiment/apichanger/ApiChanger.java:211-222 | fails exactly on an empty registry or a missing annotation; otherwise the chosen pair's parameter and annotation are removed and the registries stay as they were |
| Invariants.ApplyKeepsPathsDistinct | continuity.experimentation.experiment/src/main/java/org/continuity/experimentation/experiment/apichanger/ApiChanger.java:137-226 | every successful edit keeps the interface paths pairwise distinct |
| Invariants.ApplyKeepsBase | continuity.experimentation.experiment/src/main/java/org/continuity/experimentation/experiment/apichanger/ApiChanger.java:191-195 | every successful edit keeps every interface of the base set, and no base interface ever enters the removable registry |
| Invariants.ApplyKeepsAddedParameters | continuity.experimentation.experiment/src/main/java/org/continuity/experimentation/experiment/apichanger/ApiChanger.java:211-219 | the ADD_PARAMETER registry is never shrunk or reordered, not even by REMOVE_PARAMETER |
| Invariants.RemoveParameterTakesOriginal | continuity.experimentation.experiment/src/main/java/org/continuity/experimentation/experiment/apichanger/ApiChanger.java:157-222 | with unique ids, REMOVE_PARAMETER on the entry ADD_PARAMETER just made removes the original parameter and keeps the clone |
| Invariants.RemoveClonedEntry | continuity.experimentation.experiment/src/main/java/org/continuity/experimentation/experiment/apichanger/ApiChanger.java:214 | removing the parameter named by the newly registered pair leaves the interface with the other original parameters followed by the clone |
| Versions.GroupSizes | continuity.experimentation.experiment/src/main/java/org/continuity/experimentation/experiment/apichanger/ApiChanger.java:95-97 | 18 group sizes, each in [1, 5) |
| Versions.PlanLengthBounds | continuity.experimentation.experiment/src/main/java/org/continuity/experimentation/experiment/apichanger/ApiChanger.java:93-99 | the plan length, the sum of the group sizes, lies between 18 and 72 |
| Versions.BoundaryStrict | continuity.experimentation.experiment/src/main/java/org/continuity/experimentation/experiment/apichanger/ApiChanger.java:109-117 | with non-empty groups, later group boundaries lie strictly further into the plan |
| Versions.RunFailureSticks | continuity.experimentation.experiment/src/main/java/org/continuity/experimentation/experiment/apichanger/ApiChanger.java:108-120 | once a change throws, every longer prefix of the plan ends in that same error |
| Versions.RunKeeps | continuity.experimentation.experiment/src/main/java/org/continuity/experimentation/experiment/apichanger/ApiChanger.java:108-120 | an invariant every change preserves holds after every successful prefix of the plan |
| Versions.EngineKeepsPathsDistinct | continuity.experimentation.experiment/src/main/java/org/continuity/experimentation/experiment/apichanger/ApiChanger.java:137-226 | applyChange, whatever the kind and draw, preserves distinct interface paths |
| Versions.EngineKeepsBase | continuity.experimentation.experiment/src/main/java/org/continuity/experimentation/experiment/apichanger/ApiChanger.java:137-226 | applyChange, whatever the kind and draw, preserves the base interfaces |
| Versions.Slice | continuity.experimentation.experiment/src/main/java/org/continuity/experimentation/experiment/apichanger/ApiChanger.java:105-124 | snapshot g + 1 is labelled BaseVersion + g + 1 and holds the state after exactly the first counts[0] + ... + counts[g] changes; a full run gives exactly 18 snapshots; a change that throws leaves only the earlier snapshots |
| Versions.AddChanges | continuity.experimentation.experiment/src/main/java/org/continuity/experimentation/experiment/apichanger/ApiChanger.java:92-125 | the same snapshot guarantees, for group sizes drawn as addChanges draws them |
| Versions.AddEngineChanges | continuity.experimentation.experiment/src/main/java/org/continuity/experimentation/experiment/apichanger/ApiChanger.java:92-125 | with the engine's own changes, every snapshot moreover keeps distinct paths (when the loaded model had them) and every interface of the loaded model |
| Versions.SnapshotInvariants | continuity.experimentation.experiment/src/main/java/org/continuity/experimentation/experiment/apichanger/ApiChanger.java:111-124 | every snapshot state reached from the loaded model keeps distinct paths (when the loaded model had them) and every loaded interface |

## Left out

- `main`, the hard-coded paths and file names, and the logging: these are configuration and carry no behaviour.
- `collectChanges` and the YAML output: a snapshot is a (version, state) record and not a file write, so I/O failures are not modelled.
- `java.util.Random` and `ApiChangeType.getRandom`: the group-size draws, the change kinds and the list picks are explicit inputs. The weighting of change kinds is floating point and is not modelled.
- MarkovTemplateChanger is not part of this model. Its `copyInterface` and `removeInterface` calls are recorded, in order, in the state's template log.
- `String.matches`: regular-expression matching is the matcher function inside `Config`.
- ContinuityModelVisitor is not part of this model. The used-id set is the union of interface, parameter and input ids. Ids of any other annotation element are not collected.
- Null ids and null inputs are not modelled: every element has an id, and every parameter annotation names an input.
- `CounterInput` start, increment and maximum are unbounded integers. The model does not constrain them, so Java's int width plays no part.
- The `default` branch of the switch cannot be reached with the six change kinds, so it is not modelled.
- Object identity is replaced by ids. `List.remove(object)` removes the first element with that id, so elements that share an id are not told apart.
- `UnresolvedInput`: in Java a parameter annotation holds its input object. In the model it holds an id, and an id that names no input ends the run with this error.
- Changer.RemoveParameterFrom: the removed parameter is looked up in the first LIVE interface with the registered id. Suppose a registered pair names an interface that REMOVE_INTERFACE has since removed, and a later clone reuses that interface id. Java edits the detached object and leaves the live clone alone, but the model removes the parameter from the live clone.
- Annotations.PruneInputs: that every pruned id nothing uses loses its input is stated for distinct input ids only. With two inputs sharing an id, one prune removes only the first of them.
- Changer.ApplyRemoveInterface: the same condition on distinct input ids applies to its converse pruning clause.
- Annotations.CloneParamAnnsOutcome: "only then" and the first-failure error are stated when every input the original annotation names resolves. Otherwise an id that names no input could equal an id that an earlier iteration allocated, and the later iteration would then resolve it.
- Annotations.CloneInterfaceAnnotation: its success condition carries the same resolution premise.
- Versions.GroupSizes: states only the range of each group size, not which draw gives which size.

=== FILE: allocator.dfy ===
/** Collision-free identifiers and interface paths (ApiChanger.createNewId,
    createNewPath). Both try the initial name first and then append an
    increasing counter starting at 2: ids with a "_" separator, paths with
    none. The set of names in use is a snapshot taken at call time. */
module Allocator {
  import opened Decimal

  /** The name tried for counter value `k`. */
  function Candidate(prefix: string, k: nat): string
  {
    prefix + NatToString(k)
  }

  lemma CandidatesDistinct(prefix: string, i: nat, j: nat)
    requires i != j
    ensures Candidate(prefix, i) != Candidate(prefix, j)
  {
    if Candidate(prefix, i) == Candidate(prefix, j) {
      var s := Candidate(prefix, i);
      assert NatToString(i) == s[|prefix|..];
      assert NatToString(j) == Candidate(prefix, j)[|prefix|..];
      NatToStringInjective(i, j);
    }
  }

  /** The smallest counter value from `k` on whose candidate is unused.
      Terminates because each used candidate is struck off the finite set
      of names in use, and candidates for distinct counters differ. */
  function FirstFreeIndex(used: set<string>, prefix: string, k: nat): (j: nat)
    ensures k <= j
    ensures Candidate(prefix, j) !in used
    ensures forall i :: k <= i < j ==> Candidate(prefix, i) in used
    decreases |used|
  {
    if Candidate(prefix, k) in used then
      var j := FirstFreeIndex(used - {Candidate(prefix, k)}, prefix, k + 1);
      CandidatesDistinct(prefix, k, j);
      j
    else
      k
  }

  /** The disambiguation loop shared by ids and paths. */
  function FreshName(used: set<string>, initial: string, sep: string): (r: string)
    ensures r !in used
    ensures initial !in used ==> r == initial
    ensures initial in used ==> exists k :: 2 <= k && r == Candidate(initial + sep, k)
  {
    if initial !in used then initial
    else Candidate(initial + sep, FirstFreeIndex(used, initial + sep, 2))
  }

  /** When the initial name is taken, the result is the candidate with the
      smallest counter k >= 2 that is free, and no other. */
  lemma FreshNameIsSmallestFree(used: set<string>, initial: string, sep: string, k: nat)
    requires initial in used
    requires 2 <= k
    ensures FreshName(used, initial, sep) == Candidate(initial + sep, k)
        <==> (Candidate(initial + sep, k) !in used
              && forall i :: 2 <= i < k ==> Candidate(initial + sep, i) in used)
  {
    var j := FirstFreeIndex(used, initial + sep, 2);
    if j != k {
      CandidatesDistinct(initial + sep, j, k);
    }
  }

  /** createNewId: `initialId`, else `initialId + "_" + k`. */
  function NewId(usedIds: set<string>, initialId: string): (r: string)
    ensures r !in usedIds
    ensures initialId !in usedIds ==> r == initialId
    ensures initialId in usedIds ==> exists k :: 2 <= k && r == initialId + "_" + NatToString(k)
  {
    FreshName(usedIds, initialId, "_")
  }

  /** createNewPath: `initialPath`, else `initialPath + k` (no separator). */
  function NewPath(usedPaths: set<string>, initialPath: string): (r: string)
    ensures r !in usedPaths
    ensures initialPath !in usedPaths ==> r == initialPath
    ensures initialPath in usedPaths ==> exists k :: 2 <= k && r == initialPath + NatToString(k)
  {
    FreshName(usedPaths, initialPath, "")
  }

  /** The loop of createNewId / createNewPath, as written: start at counter
      1 with the bare name, and while the name is taken bump the counter
      and rebuild the name from the initial one. */
  method Disambiguate(used: set<string>, initial: string, sep: string) returns (name: string)
    ensures name !in used
    ensures initial !in used ==> name == initial
    ensures initial in used ==> exists k :: 2 <= k && name == Candidate(initial + sep, k)
    ensures name == FreshName(used, initial, sep)
  {
    ghost var bound := FirstFreeIndex(used, initial + sep, 2);
    name := initial;
    var idx := 1;
    while name in used
      invariant 1 <= idx <= bound
      invariant idx == 1 ==> name == initial
      invariant idx >= 2 ==> initial in used && name == Candidate(initial + sep, idx)
      decreases bound - idx
    {
      idx := idx + 1;
      name := Candidate(initial + sep, idx);
    }
  }

  method CreateNewId(usedIds: set<string>, initialId: string) returns (id: string)
    ensures id !in usedIds
    ensures initialId !in usedIds ==> id == initialId
    ensures id == NewId(usedIds, initialId)
  {
    id := Disambiguate(usedIds, initialId, "_");
  }

  method CreateNewPath(usedPaths: set<string>, initialPath: string) returns (path: string)
    ensures path !in usedPaths
    ensures initialPath !in usedPaths ==> path == initialPath
    ensures path == NewPath(usedPaths, initialPath)
  {
    path := Disambiguate(usedPaths, initialPath, "");
  }
}

=== FILE: annotations.dfy ===
/** The annotation-graph side of ApiChanger: cloning inputs and
    annotations, repointing and dropping extractions, and pruning inputs
    that no parameter annotation references any more. */
module Annotations {
  import opened Wrappers
  import opened Seqs
  import opened Model
  import opened Allocator

  // ---------------------------------------------------------------------
  // Reference counting of inputs (removeInputIfUnused)

  /** Number of parameter annotations in `pas` whose input is `inputId`. */
  function CountIn(pas: seq<ParamAnn>, inputId: Id): nat
  {
    if |pas| == 0 then 0
    else (if pas[0].input == inputId then 1 else 0) + CountIn(pas[1..], inputId)
  }

  /** Number of parameter annotations, over all interface annotations,
      whose input is `inputId`. */
  function RefCount(anns: seq<InterfaceAnn>, inputId: Id): nat
  {
    if |anns| == 0 then 0
    else CountIn(anns[0].parameterAnns, inputId) + RefCount(anns[1..], inputId)
  }

  /** Some parameter annotation of some interface annotation uses the input. */
  ghost predicate InputReferenced(anns: seq<InterfaceAnn>, inputId: Id)
  {
    exists i, j :: 0 <= i < |anns| && 0 <= j < |anns[i].parameterAnns| && anns[i].parameterAnns[j].input == inputId
  }

  lemma {:induction false} CountInZeroIff(pas: seq<ParamAnn>, inputId: Id)
    ensures CountIn(pas, inputId) == 0 <==> forall j :: 0 <= j < |pas| ==> pas[j].input != inputId
  {
    if |pas| > 0 {
      CountInZeroIff(pas[1..], inputId);
      assert forall j :: 1 <= j < |pas| ==> pas[j] == pas[1..][j - 1];
    }
  }

  /** The reference count is zero exactly when no annotation uses the input. */
  lemma {:induction false} RefCountZeroIff(anns: seq<InterfaceAnn>, inputId: Id)
    ensures RefCount(anns, inputId) == 0 <==> !InputReferenced(anns, inputId)
  {
    if |anns| > 0 {
      RefCountZeroIff(anns[1..], inputId);
      CountInZeroIff(anns[0].parameterAnns, inputId);
      if InputReferenced(anns, inputId) {
        var i, j :| 0 <= i < |anns| && 0 <= j < |anns[i].parameterAnns| && anns[i].parameterAnns[j].input == inputId;
        if i > 0 {
          assert anns[1..][i - 1] == anns[i];
          assert InputReferenced(anns[1..], inputId);
        }
      }
      if InputReferenced(anns[1..], inputId) {
        var i, j :| 0 <= i < |anns[1..]| && 0 <= j < |anns[1..][i].parameterAnns| && anns[1..][i].parameterAnns[j].input == inputId;
        assert anns[i + 1].parameterAnns[j].input == inputId;
      }
    }
  }

  /** removeInputIfUnused: the input is dropped from the annotation's input
      list exactly when no parameter annotation uses it any more; the
      interface annotations are never touched. */
  function RemoveInputIfUnused(ann: SystemAnnotation, inputId: Id): (r: SystemAnnotation)
    ensures r.interfaceAnns == ann.interfaceAnns
    ensures InputReferenced(ann.interfaceAnns, inputId) ==> r == ann
    ensures inputId !in InputIds(ann.inputs) ==> r == ann
    ensures !InputReferenced(ann.interfaceAnns, inputId) && inputId in InputIds(ann.inputs) ==>
      exists k :: 0 <= k < |ann.inputs| && ann.inputs[k].id == inputId && r.inputs == RemoveAt(ann.inputs, k)
    ensures forall x :: x in r.inputs ==> x in ann.inputs
    ensures forall x :: x in ann.inputs && x !in r.inputs ==> x.id == inputId && !InputReferenced(ann.interfaceAnns, inputId)
    ensures InputIdsUnique(ann.inputs) ==> InputIdsUnique(r.inputs)
    ensures InputIdsUnique(ann.inputs) && !InputReferenced(ann.interfaceAnns, inputId) ==> inputId !in InputIds(r.inputs)
  {
    RefCountZeroIff(ann.interfaceAnns, inputId);
    if RefCount(ann.interfaceAnns, inputId) == 0 then
      match FindInput(ann.inputs, inputId)
      case None => ann
      case Some(k) =>
        var r := ann.(inputs := RemoveAt(ann.inputs, k));
        RemoveAtKeepsUnique(ann.inputs, k);
        assert forall x :: x in r.inputs ==> x in ann.inputs by {
          forall x | x in r.inputs ensures x in ann.inputs {
            RemoveAtSubset(ann.inputs, k, x);
          }
        }
        assert forall x :: x in ann.inputs && x !in r.inputs ==> x == ann.inputs[k] by {
          forall x | x in ann.inputs && x !in r.inputs ensures x == ann.inputs[k] {
            var m :| 0 <= m < |ann.inputs| && ann.inputs[m] == x;
            if m != k {
              RemoveAtKeepsOthers(ann.inputs, k, m);
            }
          }
        }
        r
    else
      ann
  }

  /** Taking one input out keeps the ids distinct and removes its id. */
  lemma RemoveAtKeepsUnique(inputs: seq<Input>, k: nat)
    requires k < |inputs|
    ensures InputIdsUnique(inputs) ==> InputIdsUnique(RemoveAt(inputs, k))
    ensures InputIdsUnique(inputs) ==> inputs[k].id !in InputIds(RemoveAt(inputs, k))
  {
    var r := RemoveAt(inputs, k);
    if InputIdsUnique(inputs) {
      forall a, b | 0 <= a < b < |r| ensures r[a].id != r[b].id {
        var a' := if a < k then a else a + 1;
        var b' := if b < k then b else b + 1;
        assert r[a] == inputs[a'] && r[b] == inputs[b'];
      }
      forall m | 0 <= m < |r| ensures r[m].id != inputs[k].id {
        var m' := if m < k then m else m + 1;
        assert r[m] == inputs[m'];
      }
    }
  }

  /** A sub-list of inputs uses a subset of their ids. */
  lemma InputIdsSubset(xs: seq<Input>, ys: seq<Input>)
    requires forall x :: x in xs ==> x in ys
    ensures InputIds(xs) <= InputIds(ys)
  {
    forall id | id in InputIds(xs) ensures id in InputIds(ys) {
      var k :| 0 <= k < |xs| && xs[k].id == id;
      assert xs[k] in ys;
      var m :| 0 <= m < |ys| && ys[m] == xs[k];
    }
  }

  /** Prunes, in order, each of the given inputs if it became unused: an
      input leaves only if its id is among the given ones and no parameter
      annotation uses it. When input ids are distinct, every given id that
      no parameter annotation uses is gone afterwards. */
  function PruneInputs(ann: SystemAnnotation, inputIds: seq<Id>): (r: SystemAnnotation)
    ensures r.interfaceAnns == ann.interfaceAnns
    ensures forall x :: x in r.inputs ==> x in ann.inputs
    ensures forall x :: x in ann.inputs && x !in r.inputs ==> x.id in inputIds && !InputReferenced(ann.interfaceAnns, x.id)
    ensures InputIdsUnique(ann.inputs) ==> InputIdsUnique(r.inputs)
    ensures InputIdsUnique(ann.inputs) ==>
      forall id :: id in inputIds && !InputReferenced(ann.interfaceAnns, id) ==> id !in InputIds(r.inputs)
    decreases |inputIds|
  {
    if |inputIds| == 0 then ann
    else
      var ann1 := RemoveInputIfUnused(ann, inputIds[0]);
      var r := PruneInputs(ann1, inputIds[1..]);
      assert forall id :: id in inputIds[1..] ==> id in inputIds;
      InputIdsSubset(r.inputs, ann1.inputs);
      assert forall id :: id in inputIds ==> id == inputIds[0] || id in inputIds[1..];
      r
  }

  // ---------------------------------------------------------------------
  // Extractions (addToExtractedInputs, removeFromExtractedInputs)

  /** The extraction added for the new interface: every field copied from
      the original except that it reads from `newInterfaceId` and its
      template is the original's response key. */
  function Repoint(e: Extraction, newInterfaceId: Id): (r: Extraction)
    ensures r.from == newInterfaceId && r.template == e.responseKey
    ensures r.(from := e.from, template := e.template) == e
  {
    Extraction(e.pattern, e.matchNumber, e.responseKey, e.responseKey, e.fallbackValue, newInterfaceId)
  }

  /** The repointed copies of the extractions reading from `origId`, in order. */
  function NewExtractions(exs: seq<Extraction>, origId: Id, newId: Id): (r: seq<Extraction>)
    ensures |r| <= |exs|
    ensures forall m :: 0 <= m < |r| ==> r[m].from == newId
  {
    if |exs| == 0 then []
    else (if exs[0].from == origId then [Repoint(exs[0], newId)] else []) + NewExtractions(exs[1..], origId, newId)
  }

  /** The new extractions are exactly the repointed copies of those that
      read from the original interface. */
  lemma {:induction false} NewExtractionsContent(exs: seq<Extraction>, origId: Id, newId: Id, x: Extraction)
    ensures x in NewExtractions(exs, origId, newId)
        <==> exists m :: 0 <= m < |exs| && exs[m].from == origId && x == Repoint(exs[m], newId)
  {
    if |exs| > 0 {
      NewExtractionsContent(exs[1..], origId, newId, x);
      if exists m :: 0 <= m < |exs| && exs[m].from == origId && x == Repoint(exs[m], newId) {
        var m :| 0 <= m < |exs| && exs[m].from == origId && x == Repoint(exs[m], newId);
        if m > 0 {
          assert exs[1..][m - 1] == exs[m];
        }
      }
      if exists m :: 0 <= m < |exs[1..]| && exs[1..][m].from == origId && x == Repoint(exs[1..][m], newId) {
        var m :| 0 <= m < |exs[1..]| && exs[1..][m].from == origId && x == Repoint(exs[1..][m], newId);
        assert exs[m + 1] == exs[1..][m];
      }
    }
  }

  function AddExtractionsTo(x: Input, origId: Id, newId: Id): Input
  {
    if x.ExtractedInput? then x.(extractions := x.extractions + NewExtractions(x.extractions, origId, newId))
    else x
  }

  /** addToExtractedInputs: every extracted input gains, after its existing
      extractions, a repointed copy of each extraction reading from the
      original interface; nothing else changes. */
  function AddToExtractedInputs(inputs: seq<Input>, origId: Id, newId: Id): (r: seq<Input>)
    ensures |r| == |inputs|
    ensures forall k :: 0 <= k < |r| ==> r[k].id == inputs[k].id
    ensures forall k :: 0 <= k < |r| && !inputs[k].ExtractedInput? ==> r[k] == inputs[k]
    ensures forall k :: 0 <= k < |r| && inputs[k].ExtractedInput? ==>
      && r[k].ExtractedInput?
      && r[k].initialValue == inputs[k].initialValue
      && |inputs[k].extractions| <= |r[k].extractions|
      && r[k].extractions[..|inputs[k].extractions|] == inputs[k].extractions
      && r[k].extractions[|inputs[k].extractions|..] == NewExtractions(inputs[k].extractions, origId, newId)
  {
    seq(|inputs|, k requires 0 <= k < |inputs| => AddExtractionsTo(inputs[k], origId, newId))
  }

  /** The extractions that do not read from `interfaceId`, in order. */
  function KeepNotFrom(exs: seq<Extraction>, interfaceId: Id): (r: seq<Extraction>)
    ensures forall e :: e in r <==> e in exs && e.from != interfaceId
  {
    if |exs| == 0 then []
    else (if exs[0].from != interfaceId then [exs[0]] else []) + KeepNotFrom(exs[1..], interfaceId)
  }

  function RemoveExtractionsFrom(x: Input, interfaceId: Id): Input
  {
    if x.ExtractedInput? then x.(extractions := KeepNotFrom(x.extractions, interfaceId)) else x
  }

  /** removeFromExtractedInputs: afterwards no extraction reads from the
      removed interface, and every other extraction is kept. */
  function RemoveFromExtractedInputs(inputs: seq<Input>, interfaceId: Id): (r: seq<Input>)
    ensures |r| == |inputs|
    ensures forall k :: 0 <= k < |r| ==> r[k].id == inputs[k].id && r[k].ExtractedInput? == inputs[k].ExtractedInput?
    ensures forall k :: 0 <= k < |r| && !inputs[k].ExtractedInput? ==> r[k] == inputs[k]
    ensures forall k :: 0 <= k < |r| && inputs[k].ExtractedInput? ==>
      && r[k].initialValue == inputs[k].initialValue
      && forall e :: e in r[k].extractions <==> e in inputs[k].extractions && e.from != interfaceId
  {
    seq(|inputs|, k requires 0 <= k < |inputs| => RemoveExtractionsFrom(inputs[k], interfaceId))
  }

  // ---------------------------------------------------------------------
  // Cloning (cloneInput, cloneParameterAnnotation, cloneInterfaceAnnotation)

  /** cloneInput: a copy of the same variant, differing from the original
      only in its id. The source dereferences null for any other variant. */
  function CloneInput(orig: Input, newId: Id): (r: Input)
    requires !orig.UnhandledInput?
    ensures r.id == newId
    ensures r.(id := orig.id) == orig
  {
    match orig
    case DirectInput(_, data) => DirectInput(newId, data)
    case CounterInput(_, start, increment, maximum, format, scope) =>
      CounterInput(newId, start, increment, maximum, format, scope)
    case ExtractedInput(_, initialValue, extractions) =>
      ExtractedInput(newId, initialValue,
        seq(|extractions|, m requires 0 <= m < |extractions| =>
          var e := extractions[m];
          Extraction(e.pattern, e.matchNumber, e.responseKey, e.template, e.fallbackValue, e.from)))
  }

  /** cloneParameterAnnotation: the new annotation refers to `newParamId`
      and copies the overrides. An excluded input is shared; an included one
      is cloned under a fresh id derived from `<id>_CLONE` and appended to
      the annotation's inputs. */
  function CloneParameterAnnotation(cfg: Config, sys: SystemModel, ann: SystemAnnotation, orig: ParamAnn, newParamId: Id)
    : (r: Result<(SystemAnnotation, ParamAnn), Error>)
    ensures r.Success? ==>
      && r.value.0.interfaceAnns == ann.interfaceAnns
      && r.value.1.parameter == newParamId
      && r.value.1.overrides == orig.overrides
    ensures !IsIncluded(cfg, Some(orig.input)) ==>
      r.Success? && r.value.0 == ann && r.value.1.input == orig.input
    ensures IsIncluded(cfg, Some(orig.input)) && orig.input !in InputIds(ann.inputs) ==>
      r == Failure(UnresolvedInput)
    ensures IsIncluded(cfg, Some(orig.input)) && orig.input in InputIds(ann.inputs) ==>
      var k := FindInput(ann.inputs, orig.input).value;
      && (r.Failure? <==> ann.inputs[k].UnhandledInput?)
      && (r.Failure? ==> r.error == NullDereference)
      && (r.Success? ==>
            && r.value.1.input == NewId(UsedIds(sys, ann), orig.input + "_CLONE")
            && r.value.1.input !in UsedIds(sys, ann)
            && r.value.0.inputs == ann.inputs + [ann.inputs[k].(id := r.value.1.input)])
  {
    if !IsIncluded(cfg, Some(orig.input)) then
      Success((ann, ParamAnn(newParamId, orig.overrides, orig.input)))
    else
      match FindInput(ann.inputs, orig.input)
      case None => Failure(UnresolvedInput)
      case Some(k) =>
        var origInput := ann.inputs[k];
        if origInput.UnhandledInput? then Failure(NullDereference)
        else
          var newInput := CloneInput(origInput, NewId(UsedIds(sys, ann), orig.input + "_CLONE"));
          Success((ann.(inputs := ann.inputs + [newInput]), ParamAnn(newParamId, orig.overrides, newInput.id)))
  }

  /** Matches parameters by name (the stream filter of line 319). */
  function HasName(name: string): Parameter -> bool
  {
    (p: Parameter) => p.name == name
  }

  /** The annotation cloned for a new parameter called `name`: resolve the
      original interface, take its first parameter of that name, and find
      that parameter's annotation in the original interface annotation. */
  function OriginalParamAnn(sys: SystemModel, origAnn: InterfaceAnn, name: string): (r: Result<ParamAnn, Error>)
    ensures FindInterface(sys, origAnn.interface).None? ==> r == Failure(NullDereference)
    ensures FindInterface(sys, origAnn.interface).Some? ==>
      var ps := sys.interfaces[FindInterface(sys, origAnn.interface).value].parameters;
      && ((forall q :: 0 <= q < |ps| ==> ps[q].name != name) <==> r == Failure(NoSuchElement))
      && (r.Success? <==> exists q ::
            && 0 <= q < |ps| && ps[q].name == name && (forall q' :: 0 <= q' < q ==> ps[q'].name != name)
            && exists b :: 0 <= b < |origAnn.parameterAnns| && origAnn.parameterAnns[b].parameter == ps[q].id)
      && (r.Success? ==> exists q ::
            && 0 <= q < |ps| && ps[q].name == name && (forall q' :: 0 <= q' < q ==> ps[q'].name != name)
            && r.value.parameter == ps[q].id && r.value in origAnn.parameterAnns)
    ensures r.Failure? ==> r.error == NullDereference || r.error == NoSuchElement
  {
    match FindInterface(sys, origAnn.interface)
    case None => Failure(NullDereference)
    case Some(x) =>
      var ps := sys.interfaces[x].parameters;
      match FirstIndex(ps, HasName(name))
      case None => Failure(NoSuchElement)
      case Some(q) =>
        match FindParamAnn(origAnn, ps[q].id)
        case None => Failure(NullDereference)
        case Some(b) => Success(origAnn.parameterAnns[b])
  }

  /** `pa` is the clone, for `newParam`, of the annotation OriginalParamAnn
      finds: same overrides, the original input when that is excluded and
      otherwise an input id no element of `sys` and `ann` uses. */
  ghost predicate ClonesOriginal(cfg: Config, sys: SystemModel, ann: SystemAnnotation, origAnn: InterfaceAnn, newParam: Parameter, pa: ParamAnn)
  {
    var o := OriginalParamAnn(sys, origAnn, newParam.name);
    && o.Success?
    && pa.parameter == newParam.id
    && pa.overrides == o.value.overrides
    && (!IsIncluded(cfg, Some(o.value.input)) ==> pa.input == o.value.input)
    && (IsIncluded(cfg, Some(o.value.input)) ==> pa.input !in UsedIds(sys, ann))
  }

  /** Appending inputs keeps every id in use. */
  lemma InputIdsGrow(ann: SystemAnnotation, ann1: SystemAnnotation, sys: SystemModel)
    requires |ann.inputs| <= |ann1.inputs| && ann1.inputs[..|ann.inputs|] == ann.inputs
    ensures InputIds(ann.inputs) <= InputIds(ann1.inputs)
    ensures UsedIds(sys, ann) <= UsedIds(sys, ann1)
  {
    forall id | id in InputIds(ann.inputs) ensures id in InputIds(ann1.inputs) {
      var k :| 0 <= k < |ann.inputs| && ann.inputs[k].id == id;
      assert ann1.inputs[k] == ann.inputs[k];
    }
  }

  /** One iteration of cloneInterfaceAnnotation's loop: find the original
      parameter by name, its annotation, and clone that annotation. */
  function CloneParamAnnFor(cfg: Config, sys: SystemModel, ann: SystemAnnotation, origAnn: InterfaceAnn, newParam: Parameter)
    : (r: Result<(SystemAnnotation, ParamAnn), Error>)
    ensures OriginalParamAnn(sys, origAnn, newParam.name).Failure? ==>
      r == Failure(OriginalParamAnn(sys, origAnn, newParam.name).error)
    ensures OriginalParamAnn(sys, origAnn, newParam.name).Success? ==>
      r == CloneParameterAnnotation(cfg, sys, ann, OriginalParamAnn(sys, origAnn, newParam.name).value, newParam.id)
    ensures r.Success? ==>
      && r.value.0.interfaceAnns == ann.interfaceAnns
      && |ann.inputs| <= |r.value.0.inputs|
      && r.value.0.inputs[..|ann.inputs|] == ann.inputs
      && ClonesOriginal(cfg, sys, ann, origAnn, newParam, r.value.1)
  {
    var orig :- OriginalParamAnn(sys, origAnn, newParam.name);
    CloneParameterAnnotation(cfg, sys, ann, orig, newParam.id)
  }

  /** Every input an original parameter annotation names is present. */
  ghost predicate InputsResolved(ann: SystemAnnotation, origAnn: InterfaceAnn)
  {
    forall pa :: pa in origAnn.parameterAnns ==> pa.input in InputIds(ann.inputs)
  }

  /** Each of the new parameters, taken on its own against `ann`, clones. */
  ghost predicate ClonesSucceed(cfg: Config, sys: SystemModel, ann: SystemAnnotation, origAnn: InterfaceAnn, newParams: seq<Parameter>)
  {
    forall j :: 0 <= j < |newParams| ==> CloneParamAnnFor(cfg, sys, ann, origAnn, newParams[j]).Success?
  }

  /** `e` is the error of the first new parameter that does not clone. */
  ghost predicate FirstCloneFailure(cfg: Config, sys: SystemModel, ann: SystemAnnotation, origAnn: InterfaceAnn,
                                    newParams: seq<Parameter>, e: Error)
  {
    exists k :: 0 <= k < |newParams|
      && (forall j :: 0 <= j < k ==> CloneParamAnnFor(cfg, sys, ann, origAnn, newParams[j]).Success?)
      && CloneParamAnnFor(cfg, sys, ann, origAnn, newParams[k]) == Failure(e)
  }

  /** Inputs appended by earlier iterations never make an iteration fail,
      and, while the original inputs all resolve, never make one succeed
      or change its error. */
  lemma CloneForGrows(cfg: Config, sys: SystemModel, ann: SystemAnnotation, ann1: SystemAnnotation, origAnn: InterfaceAnn,
                      newParam: Parameter)
    requires |ann.inputs| <= |ann1.inputs| && ann1.inputs[..|ann.inputs|] == ann.inputs
    ensures CloneParamAnnFor(cfg, sys, ann, origAnn, newParam).Success? ==>
      CloneParamAnnFor(cfg, sys, ann1, origAnn, newParam).Success?
    ensures InputsResolved(ann, origAnn) ==>
      && InputsResolved(ann1, origAnn)
      && (CloneParamAnnFor(cfg, sys, ann1, origAnn, newParam).Failure? <==>
          CloneParamAnnFor(cfg, sys, ann, origAnn, newParam).Failure?)
      && (CloneParamAnnFor(cfg, sys, ann1, origAnn, newParam).Failure? ==>
          CloneParamAnnFor(cfg, sys, ann1, origAnn, newParam).error == CloneParamAnnFor(cfg, sys, ann, origAnn, newParam).error)
  {
    InputIdsGrow(ann, ann1, sys);
    var o := OriginalParamAnn(sys, origAnn, newParam.name);
    if o.Success? && o.value.input in InputIds(ann.inputs) {
      FindInputPrefix(ann.inputs, ann1.inputs, o.value.input);
      var k := FindInput(ann.inputs, o.value.input).value;
      assert ann1.inputs[k] == ann.inputs[k];
    }
  }

  /** The id of the input cloned for the new parameter: the input of its
      original annotation when that is found and included; None when the
      annotation shares its input or is not found. */
  function InputOrigin(cfg: Config, sys: SystemModel, origAnn: InterfaceAnn, newParam: Parameter): Option<Id>
  {
    var o := OriginalParamAnn(sys, origAnn, newParam.name);
    if o.Success? && IsIncluded(cfg, Some(o.value.input)) then Some(o.value.input) else None
  }

  function InputOrigins(cfg: Config, sys: SystemModel, origAnn: InterfaceAnn, newParams: seq<Parameter>): (r: seq<Option<Id>>)
    ensures |r| == |newParams|
    ensures forall j :: 0 <= j < |r| ==> r[j] == InputOrigin(cfg, sys, origAnn, newParams[j])
  {
    seq(|newParams|, j requires 0 <= j < |newParams| => InputOrigin(cfg, sys, origAnn, newParams[j]))
  }

  /** `x` is the clone made for `pa` of the input `origin` resolves to in
      `inputs`: that input's contents under pa's input id. */
  ghost predicate ClonedInput(origin: Id, pa: ParamAnn, inputs: seq<Input>, x: Input)
  {
    && origin in InputIds(inputs)
    && x.id == pa.input
    && x == inputs[FindInput(inputs, origin).value].(id := pa.input)
  }

  /** The inputs from position `lo` on are exactly the clones the parameter
      annotations need: each annotation with an origin has its clone there,
      and each input there is the clone for some annotation. */
  ghost predicate InputsCloned(origins: seq<Option<Id>>, pas: seq<ParamAnn>, lo: nat, inputs: seq<Input>)
  {
    && |pas| == |origins|
    && lo <= |inputs|
    && (forall j :: 0 <= j < |origins| && origins[j].Some? ==>
          exists k :: lo <= k < |inputs| && ClonedInput(origins[j].value, pas[j], inputs, inputs[k]))
    && (forall x :: x in inputs[lo..] ==>
          exists j :: 0 <= j < |origins| && origins[j].Some? && ClonedInput(origins[j].value, pas[j], inputs, x))
  }

  /** Appending inputs keeps a clone what it was: its origin still resolves
      to the same position. */
  lemma ClonedInputGrows(origin: Id, pa: ParamAnn, inputs: seq<Input>, longer: seq<Input>, x: Input)
    requires |inputs| <= |longer| && longer[..|inputs|] == inputs
    requires ClonedInput(origin, pa, inputs, x)
    ensures ClonedInput(origin, pa, longer, x)
  {
    FindInputPrefix(inputs, longer, origin);
    var k := FindInput(inputs, origin).value;
    assert longer[k] == inputs[k];
    assert origin in InputIds(longer) by {
      assert longer[k].id == origin;
    }
  }

  /** One iteration appends exactly the clone of the original input when
      the new parameter has an origin, and nothing otherwise; what later
      iterations append after it does not change that. */
  lemma FirstInputCloned(cfg: Config, sys: SystemModel, ann: SystemAnnotation, origAnn: InterfaceAnn, newParam: Parameter,
                         inputs: seq<Input>)
    requires CloneParamAnnFor(cfg, sys, ann, origAnn, newParam).Success?
    requires
      var ann1 := CloneParamAnnFor(cfg, sys, ann, origAnn, newParam).value.0;
      |ann1.inputs| <= |inputs| && inputs[..|ann1.inputs|] == ann1.inputs
    ensures
      var ann1 := CloneParamAnnFor(cfg, sys, ann, origAnn, newParam).value.0;
      var pa := CloneParamAnnFor(cfg, sys, ann, origAnn, newParam).value.1;
      var origin := InputOrigin(cfg, sys, origAnn, newParam);
      && (origin.Some? ==>
            && |ann1.inputs| == |ann.inputs| + 1
            && ClonedInput(origin.value, pa, inputs, inputs[|ann.inputs|]))
      && (origin.None? ==> ann1.inputs == ann.inputs)
  {
    var ann1 := CloneParamAnnFor(cfg, sys, ann, origAnn, newParam).value.0;
    var pa := CloneParamAnnFor(cfg, sys, ann, origAnn, newParam).value.1;
    var origin := InputOrigin(cfg, sys, origAnn, newParam);
    if origin.Some? {
      FindInputPrefix(ann.inputs, ann1.inputs, origin.value);
      var k := FindInput(ann.inputs, origin.value).value;
      assert ann1.inputs[k] == ann.inputs[k];
      assert ann1.inputs[k].id == origin.value;
      assert ClonedInput(origin.value, pa, ann1.inputs, ann1.inputs[|ann.inputs|]);
      ClonedInputGrows(origin.value, pa, ann1.inputs, inputs, ann1.inputs[|ann.inputs|]);
      assert inputs[|ann.inputs|] == ann1.inputs[|ann.inputs|];
    }
  }

  /** The first iteration's clone and those of the later iterations make up
      all inputs the loop appends. */
  lemma InputsClonedCons(origins: seq<Option<Id>>, pa: ParamAnn, pas: seq<ParamAnn>, lo: nat, lo1: nat, inputs: seq<Input>)
    requires |origins| > 0 && lo <= lo1 <= |inputs|
    requires origins[0].Some? ==> lo1 == lo + 1 && ClonedInput(origins[0].value, pa, inputs, inputs[lo])
    requires origins[0].None? ==> lo1 == lo
    requires InputsCloned(origins[1..], pas, lo1, inputs)
    ensures InputsCloned(origins, [pa] + pas, lo, inputs)
  {
    ClonesConsFound(origins, pa, pas, lo, lo1, inputs);
    ClonesConsOnly(origins, pa, pas, lo, lo1, inputs);
  }

  /** Each annotation with an origin has its clone: the first one at `lo`,
      the later ones where their iterations put them. */
  lemma ClonesConsFound(origins: seq<Option<Id>>, pa: ParamAnn, pas: seq<ParamAnn>, lo: nat, lo1: nat, inputs: seq<Input>)
    requires |origins| > 0 && |pas| == |origins| - 1 && lo <= lo1 <= |inputs|
    requires origins[0].Some? ==> lo1 == lo + 1 && ClonedInput(origins[0].value, pa, inputs, inputs[lo])
    requires forall j :: 0 <= j < |origins[1..]| && origins[1..][j].Some? ==>
               exists k :: lo1 <= k < |inputs| && ClonedInput(origins[1..][j].value, pas[j], inputs, inputs[k])
    ensures forall j :: 0 <= j < |origins| && origins[j].Some? ==>
              exists k :: lo <= k < |inputs| && ClonedInput(origins[j].value, ([pa] + pas)[j], inputs, inputs[k])
  {
    var pas' := [pa] + pas;
    forall j | 0 <= j < |origins| && origins[j].Some?
      ensures exists k :: lo <= k < |inputs| && ClonedInput(origins[j].value, pas'[j], inputs, inputs[k])
    {
      if j == 0 {
        assert ClonedInput(origins[0].value, pas'[0], inputs, inputs[lo]);
      } else {
        assert origins[j] == origins[1..][j - 1] && pas'[j] == pas[j - 1];
        var k :| lo1 <= k < |inputs| && ClonedInput(origins[1..][j - 1].value, pas[j - 1], inputs, inputs[k]);
      }
    }
  }

  /** Each appended input is a clone: the one at `lo` of the first
      annotation's origin, the later ones of a later annotation's. */
  lemma ClonesConsOnly(origins: seq<Option<Id>>, pa: ParamAnn, pas: seq<ParamAnn>, lo: nat, lo1: nat, inputs: seq<Input>)
    requires |origins| > 0 && |pas| == |origins| - 1 && lo <= lo1 <= |inputs|
    requires origins[0].Some? ==> lo1 == lo + 1 && ClonedInput(origins[0].value, pa, inputs, inputs[lo])
    requires origins[0].None? ==> lo1 == lo
    requires forall x :: x in inputs[lo1..] ==>
               exists j :: 0 <= j < |origins[1..]| && origins[1..][j].Some? && ClonedInput(origins[1..][j].value, pas[j], inputs, x)
    ensures forall x :: x in inputs[lo..] ==>
              exists j :: 0 <= j < |origins| && origins[j].Some? && ClonedInput(origins[j].value, ([pa] + pas)[j], inputs, x)
  {
    var pas' := [pa] + pas;
    forall x | x in inputs[lo..]
      ensures exists j :: 0 <= j < |origins| && origins[j].Some? && ClonedInput(origins[j].value, pas'[j], inputs, x)
    {
      if origins[0].Some? && x == inputs[lo] {
        assert ClonedInput(origins[0].value, pas'[0], inputs, x);
      } else {
        InLaterInputs(inputs, lo, lo1, x);
        var j :| 0 <= j < |origins[1..]| && origins[1..][j].Some? && ClonedInput(origins[1..][j].value, pas[j], inputs, x);
        assert origins[j + 1] == origins[1..][j] && pas'[j + 1] == pas[j];
      }
    }
  }

  /** An input past `lo` that is not the one at `lo` lies past `lo + 1`. */
  lemma InLaterInputs(inputs: seq<Input>, lo: nat, lo1: nat, x: Input)
    requires lo <= lo1 <= |inputs| && x in inputs[lo..]
    requires lo1 == lo || (lo1 == lo + 1 && x != inputs[lo])
    ensures x in inputs[lo1..]
  {
    var k :| lo <= k < |inputs| && inputs[k] == x;
    assert inputs[lo1..][k - lo1] == x;
  }

  /** The loop of cloneInterfaceAnnotation over the new parameters, in order;
      inputs cloned by earlier iterations are visible to later ones. */
  function CloneParamAnns(cfg: Config, sys: SystemModel, ann: SystemAnnotation, origAnn: InterfaceAnn, newParams: seq<Parameter>)
    : (r: Result<(SystemAnnotation, seq<ParamAnn>), Error>)
    ensures |newParams| == 0 ==> r == Success((ann, []))
    ensures r.Success? ==>
      && r.value.0.interfaceAnns == ann.interfaceAnns
      && |ann.inputs| <= |r.value.0.inputs|
      && r.value.0.inputs[..|ann.inputs|] == ann.inputs
      && |r.value.1| == |newParams|
      && (forall j :: 0 <= j < |newParams| ==> ClonesOriginal(cfg, sys, ann, origAnn, newParams[j], r.value.1[j]))
      && InputsCloned(InputOrigins(cfg, sys, origAnn, newParams), r.value.1, |ann.inputs|, r.value.0.inputs)
    ensures |newParams| > 0 && CloneParamAnnFor(cfg, sys, ann, origAnn, newParams[0]).Failure? ==>
      r == Failure(CloneParamAnnFor(cfg, sys, ann, origAnn, newParams[0]).error)
    decreases |newParams|
  {
    if |newParams| == 0 then Success((ann, []))
    else
      var (ann1, pa) :- CloneParamAnnFor(cfg, sys, ann, origAnn, newParams[0]);
      var (ann2, pas) :- CloneParamAnns(cfg, sys, ann1, origAnn, newParams[1..]);
      assert ann2.inputs[..|ann.inputs|] == ann2.inputs[..|ann1.inputs|][..|ann.inputs|];
      InputIdsGrow(ann, ann1, sys);
      ClonesOriginalCons(cfg, sys, ann, ann1, origAnn, newParams, pa, pas);
      FirstInputCloned(cfg, sys, ann, origAnn, newParams[0], ann2.inputs);
      assert InputOrigins(cfg, sys, origAnn, newParams)[1..] == InputOrigins(cfg, sys, origAnn, newParams[1..]);
      InputsClonedCons(InputOrigins(cfg, sys, origAnn, newParams), pa, pas, |ann.inputs|, |ann1.inputs|, ann2.inputs);
      Success((ann2, [pa] + pas))
  }

  /** When the loop succeeds: it succeeds whenever every new parameter
      would clone on its own, and, when every original input resolves, only
      then; a failing loop fails with the error of the first parameter that
      does not clone. */
  lemma {:induction false} CloneParamAnnsOutcome(cfg: Config, sys: SystemModel, ann: SystemAnnotation, origAnn: InterfaceAnn,
                                                 newParams: seq<Parameter>)
    ensures ClonesSucceed(cfg, sys, ann, origAnn, newParams) ==> CloneParamAnns(cfg, sys, ann, origAnn, newParams).Success?
    ensures InputsResolved(ann, origAnn) ==>
      (CloneParamAnns(cfg, sys, ann, origAnn, newParams).Success? <==> ClonesSucceed(cfg, sys, ann, origAnn, newParams))
    ensures InputsResolved(ann, origAnn) && CloneParamAnns(cfg, sys, ann, origAnn, newParams).Failure? ==>
      FirstCloneFailure(cfg, sys, ann, origAnn, newParams, CloneParamAnns(cfg, sys, ann, origAnn, newParams).error)
    decreases |newParams|
  {
    if |newParams| > 0 {
      var c0 := CloneParamAnnFor(cfg, sys, ann, origAnn, newParams[0]);
      ClonesSucceedCons(cfg, sys, ann, origAnn, newParams);
      if c0.Failure? {
        assert CloneParamAnnFor(cfg, sys, ann, origAnn, newParams[0]) == Failure(c0.error);
      } else {
        var ann1 := c0.value.0;
        var rest := newParams[1..];
        CloneParamAnnsOutcome(cfg, sys, ann1, origAnn, rest);
        CloneParamAnnsStep(cfg, sys, ann, origAnn, newParams);
        ClonesSucceedGrows(cfg, sys, ann, ann1, origAnn, rest);
        var r := CloneParamAnns(cfg, sys, ann, origAnn, newParams);
        if InputsResolved(ann, origAnn) && r.Failure? {
          FirstFailureGrows(cfg, sys, ann, ann1, origAnn, rest, r.error);
          FirstFailureCons(cfg, sys, ann, origAnn, newParams, r.error);
        }
      }
    }
  }

  /** One unrolling of the loop after a successful first iteration. */
  lemma CloneParamAnnsStep(cfg: Config, sys: SystemModel, ann: SystemAnnotation, origAnn: InterfaceAnn, newParams: seq<Parameter>)
    requires |newParams| > 0 && CloneParamAnnFor(cfg, sys, ann, origAnn, newParams[0]).Success?
    ensures
      var rec := CloneParamAnns(cfg, sys, CloneParamAnnFor(cfg, sys, ann, origAnn, newParams[0]).value.0, origAnn, newParams[1..]);
      && (CloneParamAnns(cfg, sys, ann, origAnn, newParams).Success? <==> rec.Success?)
      && (rec.Failure? ==> CloneParamAnns(cfg, sys, ann, origAnn, newParams).error == rec.error)
  {
  }

  lemma ClonesSucceedCons(cfg: Config, sys: SystemModel, ann: SystemAnnotation, origAnn: InterfaceAnn, newParams: seq<Parameter>)
    requires |newParams| > 0
    ensures ClonesSucceed(cfg, sys, ann, origAnn, newParams) <==>
      CloneParamAnnFor(cfg, sys, ann, origAnn, newParams[0]).Success? && ClonesSucceed(cfg, sys, ann, origAnn, newParams[1..])
  {
    assert forall j :: 1 <= j < |newParams| ==> newParams[j] == newParams[1..][j - 1];
  }

  /** CloneForGrows, for every parameter of a list. */
  lemma ClonesSucceedGrows(cfg: Config, sys: SystemModel, ann: SystemAnnotation, ann1: SystemAnnotation, origAnn: InterfaceAnn,
                           newParams: seq<Parameter>)
    requires |ann.inputs| <= |ann1.inputs| && ann1.inputs[..|ann.inputs|] == ann.inputs
    ensures ClonesSucceed(cfg, sys, ann, origAnn, newParams) ==> ClonesSucceed(cfg, sys, ann1, origAnn, newParams)
    ensures InputsResolved(ann, origAnn) ==>
      && InputsResolved(ann1, origAnn)
      && (ClonesSucceed(cfg, sys, ann1, origAnn, newParams) ==> ClonesSucceed(cfg, sys, ann, origAnn, newParams))
  {
    forall j | 0 <= j < |newParams|
      ensures CloneParamAnnFor(cfg, sys, ann, origAnn, newParams[j]).Success? ==>
        CloneParamAnnFor(cfg, sys, ann1, origAnn, newParams[j]).Success?
      ensures InputsResolved(ann, origAnn) && CloneParamAnnFor(cfg, sys, ann1, origAnn, newParams[j]).Success? ==>
        CloneParamAnnFor(cfg, sys, ann, origAnn, newParams[j]).Success?
    {
      CloneForGrows(cfg, sys, ann, ann1, origAnn, newParams[j]);
    }
    InputIdsGrow(ann, ann1, sys);
  }

  lemma FirstFailureGrows(cfg: Config, sys: SystemModel, ann: SystemAnnotation, ann1: SystemAnnotation, origAnn: InterfaceAnn,
                          newParams: seq<Parameter>, e: Error)
    requires |ann.inputs| <= |ann1.inputs| && ann1.inputs[..|ann.inputs|] == ann.inputs
    requires InputsResolved(ann, origAnn)
    requires FirstCloneFailure(cfg, sys, ann1, origAnn, newParams, e)
    ensures FirstCloneFailure(cfg, sys, ann, origAnn, newParams, e)
  {
    var k :| 0 <= k < |newParams|
      && (forall j :: 0 <= j < k ==> CloneParamAnnFor(cfg, sys, ann1, origAnn, newParams[j]).Success?)
      && CloneParamAnnFor(cfg, sys, ann1, origAnn, newParams[k]) == Failure(e);
    forall j | 0 <= j < k ensures CloneParamAnnFor(cfg, sys, ann, origAnn, newParams[j]).Success? {
      CloneForGrows(cfg, sys, ann, ann1, origAnn, newParams[j]);
    }
    CloneForGrows(cfg, sys, ann, ann1, origAnn, newParams[k]);
  }

  lemma FirstFailureCons(cfg: Config, sys: SystemModel, ann: SystemAnnotation, origAnn: InterfaceAnn,
                         newParams: seq<Parameter>, e: Error)
    requires |newParams| > 0 && CloneParamAnnFor(cfg, sys, ann, origAnn, newParams[0]).Success?
    requires FirstCloneFailure(cfg, sys, ann, origAnn, newParams[1..], e)
    ensures FirstCloneFailure(cfg, sys, ann, origAnn, newParams, e)
  {
    var k :| 0 <= k < |newParams[1..]|
      && (forall j :: 0 <= j < k ==> CloneParamAnnFor(cfg, sys, ann, origAnn, newParams[1..][j]).Success?)
      && CloneParamAnnFor(cfg, sys, ann, origAnn, newParams[1..][k]) == Failure(e);
    forall j | 0 <= j < k + 1 ensures CloneParamAnnFor(cfg, sys, ann, origAnn, newParams[j]).Success? {
      if j > 0 {
        assert newParams[j] == newParams[1..][j - 1];
      }
    }
    assert newParams[k + 1] == newParams[1..][k];
  }

  /** The first clone and the clones made after it, against the inputs as
      they stood before the first, together describe the whole loop. */
  lemma ClonesOriginalCons(cfg: Config, sys: SystemModel, ann: SystemAnnotation, ann1: SystemAnnotation, origAnn: InterfaceAnn,
                           newParams: seq<Parameter>, pa: ParamAnn, pas: seq<ParamAnn>)
    requires |newParams| == |pas| + 1
    requires UsedIds(sys, ann) <= UsedIds(sys, ann1)
    requires ClonesOriginal(cfg, sys, ann, origAnn, newParams[0], pa)
    requires forall j :: 0 <= j < |pas| ==> ClonesOriginal(cfg, sys, ann1, origAnn, newParams[1..][j], pas[j])
    ensures forall j :: 0 <= j < |newParams| ==> ClonesOriginal(cfg, sys, ann, origAnn, newParams[j], ([pa] + pas)[j])
  {
    forall j | 1 <= j < |newParams| ensures ClonesOriginal(cfg, sys, ann, origAnn, newParams[j], ([pa] + pas)[j]) {
      assert newParams[j] == newParams[1..][j - 1];
      assert ([pa] + pas)[j] == pas[j - 1];
      ClonesOriginalWeaken(cfg, sys, ann, ann1, origAnn, newParams[j], pas[j - 1]);
    }
  }

  /** A clone whose input is fresh for more ids is fresh for fewer. */
  lemma ClonesOriginalWeaken(cfg: Config, sys: SystemModel, ann: SystemAnnotation, ann1: SystemAnnotation, origAnn: InterfaceAnn,
                             newParam: Parameter, pa: ParamAnn)
    requires UsedIds(sys, ann) <= UsedIds(sys, ann1)
    requires ClonesOriginal(cfg, sys, ann1, origAnn, newParam, pa)
    ensures ClonesOriginal(cfg, sys, ann, origAnn, newParam, pa)
  {
  }

  /** cloneInterfaceAnnotation: an annotation of the new interface with the
      original's overrides and one cloned parameter annotation per new
      parameter, in the new interface's parameter order. */
  function CloneInterfaceAnnotation(cfg: Config, sys: SystemModel, ann: SystemAnnotation, origAnn: InterfaceAnn, newInterf: Interface)
    : (r: Result<(SystemAnnotation, InterfaceAnn), Error>)
    ensures |newInterf.parameters| == 0 ==> r == Success((ann, InterfaceAnn(newInterf.id, origAnn.overrides, [])))
    ensures r.Success? ==>
      && r.value.0.interfaceAnns == ann.interfaceAnns
      && |ann.inputs| <= |r.value.0.inputs|
      && r.value.0.inputs[..|ann.inputs|] == ann.inputs
      && r.value.1.interface == newInterf.id
      && r.value.1.overrides == origAnn.overrides
      && |r.value.1.parameterAnns| == |newInterf.parameters|
      && (forall j :: 0 <= j < |newInterf.parameters| ==>
            ClonesOriginal(cfg, sys, ann, origAnn, newInterf.parameters[j], r.value.1.parameterAnns[j]))
      && InputsCloned(InputOrigins(cfg, sys, origAnn, newInterf.parameters), r.value.1.parameterAnns, |ann.inputs|, r.value.0.inputs)
    ensures ClonesSucceed(cfg, sys, ann, origAnn, newInterf.parameters) ==> r.Success?
    ensures InputsResolved(ann, origAnn) ==> (r.Success? <==> ClonesSucceed(cfg, sys, ann, origAnn, newInterf.parameters))
    ensures InputsResolved(ann, origAnn) && r.Failure? ==> FirstCloneFailure(cfg, sys, ann, origAnn, newInterf.parameters, r.error)
  {
    CloneParamAnnsOutcome(cfg, sys, ann, origAnn, newInterf.parameters);
    var (ann1, pas) :- CloneParamAnns(cfg, sys, ann, origAnn, newInterf.parameters);
    Success((ann1, InterfaceAnn(newInterf.id, origAnn.overrides, pas)))
  }
}

=== FILE: changer.dfy ===
/** ApiChanger's state and its six edit operations (applyChange). Each
    operation is a transition from one state to the next, or an error that
    aborts the run. Random choices arrive as explicit draws: a draw `d`
    applied to a candidate list of length n picks position `d % n`, the way
    Random.nextInt(n) picks a position in [0, n); nextInt(0) throws. */
module Changer {
  import opened Wrappers
  import opened Seqs
  import opened Model
  import opened Allocator
  import opened Annotations

  /** A call into MarkovTemplateChanger, which is not part of this model. */
  datatype TemplateCall = CopyInterface(src: Id, dst: Id) | RemoveInterfaceCall(id: Id)

  /** ApiChangeType. */
  datatype ChangeKind =
    | AddInterface
    | AddParameter
    | ChangeInterfacePath
    | ChangeParameterName
    | RemoveInterface
    | RemoveParameter

  /** The mutable state of one ApiChanger: the two graphs, the registries
      of added interfaces and of (interface, parameter) pairs recorded by
      ADD_PARAMETER, and the calls made on the transition template. */
  datatype State = State(
    system: SystemModel,
    annotation: SystemAnnotation,
    addedInterfaces: seq<Id>,
    addedParameters: seq<(Id, Id)>,
    template: seq<TemplateCall>)

  function Used(s: State): set<Id>
  {
    UsedIds(s.system, s.annotation)
  }

  /** selectRandom over a list of length n. */
  function Pick(n: nat, draw: nat): (k: nat)
    requires n > 0
    ensures k < n
  {
    draw % n
  }

  // ---------------------------------------------------------------------
  // Candidate (interface, parameter) positions

  /** Positions (i, j) of the parameters j < m of interface i for which
      `keep` holds, in parameter order. */
  function ParamSlots(ifaces: seq<Interface>, keep: Parameter -> bool, i: nat, m: nat): (r: seq<(nat, nat)>)
    requires i < |ifaces| && m <= |ifaces[i].parameters|
    ensures forall q :: 0 <= q < |r| ==> r[q].0 == i && r[q].1 < m && keep(ifaces[i].parameters[r[q].1])
    ensures forall j :: 0 <= j < m && keep(ifaces[i].parameters[j]) ==> (i, j) in r
    ensures forall p, q :: 0 <= p < q < |r| ==> SlotBefore(r[p], r[q])
  {
    if m == 0 then []
    else ParamSlots(ifaces, keep, i, m - 1) + (if keep(ifaces[i].parameters[m - 1]) then [(i, m - 1)] else [])
  }

  /** The flattened candidate list of the first n interfaces, interface by
      interface and parameter by parameter, filtered by `keep`. */
  function Slots(ifaces: seq<Interface>, keep: Parameter -> bool, n: nat): (r: seq<(nat, nat)>)
    requires n <= |ifaces|
    ensures forall q :: 0 <= q < |r| ==>
      r[q].0 < n && r[q].1 < |ifaces[r[q].0].parameters| && keep(ifaces[r[q].0].parameters[r[q].1])
    ensures forall i, j :: 0 <= i < n && 0 <= j < |ifaces[i].parameters| && keep(ifaces[i].parameters[j]) ==> (i, j) in r
    ensures forall p, q :: 0 <= p < q < |r| ==> SlotBefore(r[p], r[q])
  {
    if n == 0 then []
    else Slots(ifaces, keep, n - 1) + ParamSlots(ifaces, keep, n - 1, |ifaces[n - 1].parameters|)
  }

  /** Position a comes before position b in interface-then-parameter order. */
  predicate SlotBefore(a: (nat, nat), b: (nat, nat))
  {
    a.0 < b.0 || (a.0 == b.0 && a.1 < b.1)
  }

  /** The candidate list of the flatMap stream: exactly the positions whose
      parameter passes the filter, each once, interface by interface and
      parameter by parameter. */
  function AllSlots(ifaces: seq<Interface>, keep: Parameter -> bool): (r: seq<(nat, nat)>)
    ensures forall q :: 0 <= q < |r| ==>
      r[q].0 < |ifaces| && r[q].1 < |ifaces[r[q].0].parameters| && keep(ifaces[r[q].0].parameters[r[q].1])
    ensures forall i, j :: 0 <= i < |ifaces| && 0 <= j < |ifaces[i].parameters| && keep(ifaces[i].parameters[j]) ==> (i, j) in r
    ensures forall p, q :: 0 <= p < q < |r| ==> SlotBefore(r[p], r[q])
    ensures |r| == 0 <==> forall i, j :: 0 <= i < |ifaces| && 0 <= j < |ifaces[i].parameters| ==> !keep(ifaces[i].parameters[j])
  {
    var r := Slots(ifaces, keep, |ifaces|);
    assert |r| > 0 ==> keep(ifaces[r[0].0].parameters[r[0].1]);
    r
  }

  // ---------------------------------------------------------------------
  // Cloning of system-model elements

  /** cloneParameter: same name and type under a fresh id from `<id>_CLONE`. */
  function CloneParameter(usedIds: set<Id>, p: Parameter): (r: Parameter)
    ensures r.id == NewId(usedIds, p.id + "_CLONE")
    ensures r.id !in usedIds
    ensures r.(id := p.id) == p
  {
    Parameter(NewId(usedIds, p.id + "_CLONE"), p.name, p.kind)
  }

  /** cloneInterface: a copy under a fresh id from `<id>_CLONE` and a fresh
      path from `<path>/clone`; each parameter is cloned and re-identified
      from `<newId>_<paramId>`. All allocations see the graphs as they stand
      before the clone is inserted, so the new parameter ids are fresh with
      respect to the graphs but not checked against one another. */
  function CloneInterface(s: State, orig: Interface): (r: Interface)
    ensures r.id == NewId(Used(s), orig.id + "_CLONE") && r.id !in Used(s)
    ensures r.path == NewPath(UsedPaths(s.system), orig.path + "/clone") && r.path !in UsedPaths(s.system)
    ensures r.(id := orig.id, path := orig.path, parameters := orig.parameters) == orig
    ensures |r.parameters| == |orig.parameters|
    ensures forall j :: 0 <= j < |r.parameters| ==>
      && r.parameters[j].id == NewId(Used(s), r.id + "_" + orig.parameters[j].id)
      && r.parameters[j].id !in Used(s)
      && r.parameters[j].(id := orig.parameters[j].id) == orig.parameters[j]
  {
    var used := Used(s);
    var newId := NewId(used, orig.id + "_CLONE");
    Interface(newId, orig.domain, orig.protocol, orig.httpMethod, orig.port, orig.encoding, orig.headers,
      NewPath(UsedPaths(s.system), orig.path + "/clone"),
      seq(|orig.parameters|, j requires 0 <= j < |orig.parameters| =>
        CloneParameter(used, orig.parameters[j]).(id := NewId(used, newId + "_" + orig.parameters[j].id))))
  }

  // ---------------------------------------------------------------------
  // The six edits

  /** Clones the first annotation of the original interface, if it has
      one, and appends the clone to the interface annotations, together
      with the inputs the cloning adds; a failing clone aborts. */
  function AddClonedAnnotation(cfg: Config, sys: SystemModel, ann: SystemAnnotation, origId: Id, newInterf: Interface)
    : (r: Result<SystemAnnotation, Error>)
    ensures FindInterfaceAnn(ann, origId).None? ==> r == Success(ann)
    ensures FindInterfaceAnn(ann, origId).Some? ==>
      var c := CloneInterfaceAnnotation(cfg, sys, ann, ann.interfaceAnns[FindInterfaceAnn(ann, origId).value], newInterf);
      && (r.Success? <==> c.Success?)
      && (r.Failure? ==> r.error == c.error)
      && (r.Success? ==>
            && r.value.interfaceAnns == ann.interfaceAnns + [c.value.1]
            && r.value.inputs == c.value.0.inputs)
    ensures FindInterfaceAnn(ann, origId).Some? && r.Success? ==>
      && |r.value.interfaceAnns| == |ann.interfaceAnns| + 1
      && r.value.interfaceAnns[..|ann.interfaceAnns|] == ann.interfaceAnns
      && r.value.interfaceAnns[|ann.interfaceAnns|].interface == newInterf.id
    ensures r.Success? ==> |ann.inputs| <= |r.value.inputs| && r.value.inputs[..|ann.inputs|] == ann.inputs
  {
    match FindInterfaceAnn(ann, origId)
    case None => Success(ann)
    case Some(a) =>
      var (ann1, ia) :- CloneInterfaceAnnotation(cfg, sys, ann, ann.interfaceAnns[a], newInterf);
      Success(ann1.(interfaceAnns := ann1.interfaceAnns + [ia]))
  }

  /** ADD_INTERFACE: clone a randomly chosen interface, append the clone and
      register it as added, clone its annotation, add extractions reading
      from the clone, and copy its transitions. */
  function ApplyAddInterface(cfg: Config, s: State, draw: nat): (r: Result<State, Error>)
    ensures |s.system.interfaces| == 0 ==> r == Failure(EmptySelection)
    ensures r.Success? ==>
      var n := |s.system.interfaces|;
      var t := r.value;
      && n > 0
      && |t.system.interfaces| == n + 1
      && t.system.interfaces[..n] == s.system.interfaces
      && t.system.interfaces[n] == CloneInterface(s, s.system.interfaces[Pick(n, draw)])
      && t.system.interfaces[n].id !in Used(s)
      && t.system.interfaces[n].path !in UsedPaths(s.system)
      && t.addedInterfaces == s.addedInterfaces + [t.system.interfaces[n].id]
      && t.addedParameters == s.addedParameters
      && t.template == s.template + [CopyInterface(s.system.interfaces[Pick(n, draw)].id, t.system.interfaces[n].id)]
    ensures |s.system.interfaces| > 0 ==>
      var orig := s.system.interfaces[Pick(|s.system.interfaces|, draw)];
      var newInterf := CloneInterface(s, orig);
      var c := AddClonedAnnotation(cfg, SystemModel(s.system.interfaces + [newInterf]), s.annotation, orig.id, newInterf);
      && (r.Success? <==> c.Success?)
      && (r.Failure? ==> r.error == c.error)
      && (r.Success? ==>
            && r.value.annotation.interfaceAnns == c.value.interfaceAnns
            && r.value.annotation.inputs == AddToExtractedInputs(c.value.inputs, orig.id, newInterf.id))
  {
    if |s.system.interfaces| == 0 then Failure(EmptySelection)
    else
      var orig := s.system.interfaces[Pick(|s.system.interfaces|, draw)];
      var newInterf := CloneInterface(s, orig);
      var sys := SystemModel(s.system.interfaces + [newInterf]);
      var ann1 :- AddClonedAnnotation(cfg, sys, s.annotation, orig.id, newInterf);
      var ann2 := ann1.(inputs := AddToExtractedInputs(ann1.inputs, orig.id, newInterf.id));
      assert sys.interfaces[..|s.system.interfaces|] == s.system.interfaces;
      Success(State(sys, ann2, s.addedInterfaces + [newInterf.id], s.addedParameters,
        s.template + [CopyInterface(orig.id, newInterf.id)]))
  }

  /** The parameters ADD_PARAMETER may pick: the included ones. */
  function AddCandidates(cfg: Config): Parameter -> bool
  {
    (p: Parameter) => IsIncluded(cfg, Some(p.id))
  }

  /** ADD_PARAMETER: clone a randomly chosen included parameter, name the
      clone `<name>Clone`, append it to the same interface and clone its
      annotation. The registry records the ORIGINAL (interface, parameter)
      pair, not the clone. */
  function ApplyAddParameter(cfg: Config, s: State, draw: nat): (r: Result<State, Error>)
    ensures r == Failure(EmptySelection) <==>
      forall i, j :: 0 <= i < |s.system.interfaces| && 0 <= j < |s.system.interfaces[i].parameters|
        ==> !IsIncluded(cfg, Some(s.system.interfaces[i].parameters[j].id))
    ensures r.Success? ==> exists i, j ::
      && 0 <= i < |s.system.interfaces| && 0 <= j < |s.system.interfaces[i].parameters|
      && IsIncluded(cfg, Some(s.system.interfaces[i].parameters[j].id))
      && ParameterClonedAt(s, r.value, i, j)
      && ParamAnnClonedAt(cfg, s, r.value, i, j)
    ensures r.Failure? ==> r.error in {EmptySelection, NullDereference, UnresolvedInput}
    ensures r.Success? ==>
      var slots := AllSlots(s.system.interfaces, AddCandidates(cfg));
      && |slots| > 0
      && var (i, j) := slots[Pick(|slots|, draw)];
         && ParameterClonedAt(s, r.value, i, j)
         && ParamAnnClonedAt(cfg, s, r.value, i, j)
    ensures
      var slots := AllSlots(s.system.interfaces, AddCandidates(cfg));
      |slots| > 0 ==>
        var (i, j) := slots[Pick(|slots|, draw)];
        var c := AddParameterAnnotation(cfg, s, WithClonedParameter(s, i, j), i, j);
        && (r.Success? <==> c.Success?)
        && (r.Failure? ==> r.error == c.error)
  {
    var slots := AllSlots(s.system.interfaces, AddCandidates(cfg));
    if |slots| == 0 then Failure(EmptySelection)
    else
      var (i, j) := slots[Pick(|slots|, draw)];
      AddParameterAnnotation(cfg, s, WithClonedParameter(s, i, j), i, j)
  }

  /** The annotation half of ADD_PARAMETER, on the state `t` that already
      holds the cloned parameter: the original parameter's annotation in
      the first annotation of its interface is cloned for the new
      parameter and appended there. A missing annotation is dereferenced
      as null. */
  function AddParameterAnnotation(cfg: Config, s: State, t: State, i: nat, j: nat): (r: Result<State, Error>)
    requires i < |s.system.interfaces| && j < |s.system.interfaces[i].parameters|
    requires ParameterClonedAt(s, t, i, j) && t.annotation == s.annotation
    ensures FindInterfaceAnn(s.annotation, s.system.interfaces[i].id).None? ==> r == Failure(NullDereference)
    ensures FindInterfaceAnn(s.annotation, s.system.interfaces[i].id).Some? ==>
      var ia := s.annotation.interfaceAnns[FindInterfaceAnn(s.annotation, s.system.interfaces[i].id).value];
      var fb := FindParamAnn(ia, s.system.interfaces[i].parameters[j].id);
      && (fb.None? ==> r == Failure(NullDereference))
      && (fb.Some? ==>
            var c := CloneParameterAnnotation(cfg, t.system, s.annotation, ia.parameterAnns[fb.value],
                                              t.system.interfaces[i].parameters[|s.system.interfaces[i].parameters|].id);
            && (r.Success? <==> c.Success?)
            && (r.Failure? ==> r.error == c.error))
    ensures r.Failure? ==> r.error in {NullDereference, UnresolvedInput}
    ensures r.Success? ==> r.value.(annotation := t.annotation) == t && ParamAnnClonedAt(cfg, s, r.value, i, j)
  {
    var interf := s.system.interfaces[i];
    match FindInterfaceAnn(s.annotation, interf.id)
    case None => Failure(NullDereference)
    case Some(a) =>
      var ia := s.annotation.interfaceAnns[a];
      match FindParamAnn(ia, interf.parameters[j].id)
      case None => Failure(NullDereference)
      case Some(b) =>
        var newId := t.system.interfaces[i].parameters[|interf.parameters|].id;
        var (ann1, pa) :- CloneParameterAnnotation(cfg, t.system, s.annotation, ia.parameterAnns[b], newId);
        var ann2 := ann1.(interfaceAnns := ann1.interfaceAnns[a := ia.(parameterAnns := ia.parameterAnns + [pa])]);
        Success(t.(annotation := ann2))
  }

  /** The annotation side of cloning parameter j of interface i into `t`:
      the first annotation of the interface gains, at its end, the clone of
      the original parameter's annotation for the new parameter; no other
      interface annotation changes, and the inputs are those the cloning
      leaves. */
  ghost predicate ParamAnnClonedAt(cfg: Config, s: State, t: State, i: nat, j: nat)
    requires i < |s.system.interfaces| && j < |s.system.interfaces[i].parameters|
    requires ParameterClonedAt(s, t, i, j)
  {
    var interf := s.system.interfaces[i];
    var fa := FindInterfaceAnn(s.annotation, interf.id);
    && fa.Some?
    && var ia := s.annotation.interfaceAnns[fa.value];
       var fb := FindParamAnn(ia, interf.parameters[j].id);
       && fb.Some?
       && var c := CloneParameterAnnotation(cfg, t.system, s.annotation, ia.parameterAnns[fb.value],
                                            t.system.interfaces[i].parameters[|interf.parameters|].id);
          && c.Success?
          && t.annotation.inputs == c.value.0.inputs
          && t.annotation.interfaceAnns == s.annotation.interfaceAnns[fa.value := ia.(parameterAnns := ia.parameterAnns + [c.value.1])]
  }

  /** The system half of ADD_PARAMETER: parameter j of interface i is
      cloned under a fresh id, renamed with the "Clone" suffix, appended to
      the same interface and recorded in the registry under the original
      pair. */
  function WithClonedParameter(s: State, i: nat, j: nat): (t: State)
    requires i < |s.system.interfaces| && j < |s.system.interfaces[i].parameters|
    ensures ParameterClonedAt(s, t, i, j)
    ensures t.annotation == s.annotation
  {
    var interf := s.system.interfaces[i];
    var p := interf.parameters[j];
    var newParam := CloneParameter(Used(s), p).(name := p.name + "Clone");
    var sys := SystemModel(s.system.interfaces[i := interf.(parameters := interf.parameters + [newParam])]);
    State(sys, s.annotation, s.addedInterfaces, s.addedParameters + [(interf.id, p.id)], s.template)
  }

  ghost predicate ParameterClonedAt(s: State, t: State, i: nat, j: nat)
    requires i < |s.system.interfaces| && j < |s.system.interfaces[i].parameters|
  {
    var interf := s.system.interfaces[i];
    var p := interf.parameters[j];
    && |t.system.interfaces| == |s.system.interfaces|
    && (forall m :: 0 <= m < |s.system.interfaces| && m != i ==> t.system.interfaces[m] == s.system.interfaces[m])
    && t.system.interfaces[i].(parameters := interf.parameters) == interf
    && |t.system.interfaces[i].parameters| == |interf.parameters| + 1
    && t.system.interfaces[i].parameters[..|interf.parameters|] == interf.parameters
    && var q := t.system.interfaces[i].parameters[|interf.parameters|];
       && q.id == NewId(Used(s), p.id + "_CLONE")
       && q.id !in Used(s)
       && q.name == p.name + "Clone"
       && q.kind == p.kind
       && t.addedParameters == s.addedParameters + [(interf.id, p.id)]
       && t.addedInterfaces == s.addedInterfaces
       && t.template == s.template
  }

  /** CHANGE_INTERFACE_PATH: a randomly chosen interface gets a free path
      derived from `<path>/changed`; nothing else changes. */
  function ApplyChangeInterfacePath(cfg: Config, s: State, draw: nat): (r: Result<State, Error>)
    ensures r.Failure? <==> |s.system.interfaces| == 0
    ensures r.Failure? ==> r.error == EmptySelection
    ensures r.Success? ==>
      var t := r.value;
      && t.(system := s.system) == s
      && |t.system.interfaces| == |s.system.interfaces|
      && (exists k :: 0 <= k < |s.system.interfaces|
            && k == Pick(|s.system.interfaces|, draw)
            && t.system.interfaces[k].path == NewPath(UsedPaths(s.system), s.system.interfaces[k].path + "/changed")
            && t.system.interfaces[k].path !in UsedPaths(s.system)
            && t.system.interfaces[k].(path := s.system.interfaces[k].path) == s.system.interfaces[k]
            && forall m :: 0 <= m < |s.system.interfaces| && m != k ==> t.system.interfaces[m] == s.system.interfaces[m])
  {
    if |s.system.interfaces| == 0 then Failure(EmptySelection)
    else
      var k := Pick(|s.system.interfaces|, draw);
      var interf := s.system.interfaces[k];
      var newPath := NewPath(UsedPaths(s.system), interf.path + "/changed");
      Success(s.(system := SystemModel(s.system.interfaces[k := interf.(path := newPath)])))
  }

  /** The parameters CHANGE_PARAMETER_NAME may pick: not URL parts, and included. */
  function RenameCandidate(cfg: Config, p: Parameter): bool
  {
    p.kind != UrlPart && IsIncluded(cfg, Some(p.id))
  }

  function RenameCandidates(cfg: Config): Parameter -> bool
  {
    (p: Parameter) => RenameCandidate(cfg, p)
  }

  /** CHANGE_PARAMETER_NAME: a randomly chosen candidate parameter is renamed
      to `<name>-changed`; nothing else changes. */
  function ApplyChangeParameterName(cfg: Config, s: State, draw: nat): (r: Result<State, Error>)
    ensures r.Failure? <==>
      forall i, j :: 0 <= i < |s.system.interfaces| && 0 <= j < |s.system.interfaces[i].parameters|
        ==> !RenameCandidate(cfg, s.system.interfaces[i].parameters[j])
    ensures r.Failure? ==> r.error == EmptySelection
    ensures r.Success? ==> exists i, j ::
      && 0 <= i < |s.system.interfaces| && 0 <= j < |s.system.interfaces[i].parameters|
      && RenameCandidate(cfg, s.system.interfaces[i].parameters[j])
      && ParameterRenamedAt(s, r.value, i, j)
    ensures r.Success? ==>
      var slots := AllSlots(s.system.interfaces, RenameCandidates(cfg));
      && |slots| > 0
      && var (i, j) := slots[Pick(|slots|, draw)];
         ParameterRenamedAt(s, r.value, i, j)
  {
    var slots := AllSlots(s.system.interfaces, RenameCandidates(cfg));
    if |slots| == 0 then Failure(EmptySelection)
    else
      var (i, j) := slots[Pick(|slots|, draw)];
      var interf := s.system.interfaces[i];
      var p := interf.parameters[j];
      var t := s.(system := SystemModel(s.system.interfaces[i := interf.(parameters := interf.parameters[j := p.(name := p.name + "-changed")])]));
      assert ParameterRenamedAt(s, t, i, j);
      Success(t)
  }

  /** Parameter j of interface i was renamed to `<name>-changed` and nothing
      else differs between `s` and `t`. */
  ghost predicate ParameterRenamedAt(s: State, t: State, i: nat, j: nat)
    requires i < |s.system.interfaces| && j < |s.system.interfaces[i].parameters|
  {
    var interf := s.system.interfaces[i];
    var p := interf.parameters[j];
    && t.(system := s.system) == s
    && |t.system.interfaces| == |s.system.interfaces|
    && (forall m :: 0 <= m < |s.system.interfaces| && m != i ==> t.system.interfaces[m] == s.system.interfaces[m])
    && t.system.interfaces[i].(parameters := interf.parameters) == interf
    && |t.system.interfaces[i].parameters| == |interf.parameters|
    && (forall q :: 0 <= q < |interf.parameters| && q != j ==> t.system.interfaces[i].parameters[q] == interf.parameters[q])
    && t.system.interfaces[i].parameters[j].name == p.name + "-changed"
    && t.system.interfaces[i].parameters[j].(name := p.name) == p
  }

  /** No extraction of any extracted input reads from `interfaceId`. */
  ghost predicate NoExtractionFrom(inputs: seq<Input>, interfaceId: Id)
  {
    forall x :: x in inputs && x.ExtractedInput? ==> forall e :: e in x.extractions ==> e.from != interfaceId
  }

  function InputsOf(pas: seq<ParamAnn>): seq<Id>
  {
    seq(|pas|, j requires 0 <= j < |pas| => pas[j].input)
  }

  /** REMOVE_INTERFACE: only a registered (added) interface can be chosen;
      it leaves the registry in any case. When it is still in the system
      model it is removed together with its annotation, the extractions
      reading from it and the inputs its parameters no longer keep alive,
      and its transitions are dropped. */
  function ApplyRemoveInterface(cfg: Config, s: State, draw: nat): (r: Result<State, Error>)
    ensures r == Failure(EmptySelection) <==> |s.addedInterfaces| == 0
    ensures |s.addedInterfaces| > 0 ==>
      var k := Pick(|s.addedInterfaces|, draw);
      var id := s.addedInterfaces[k];
      && (id !in InterfaceIds(s.system) ==> r == Success(s.(addedInterfaces := RemoveAt(s.addedInterfaces, k))))
      && (id in InterfaceIds(s.system) ==>
            && (r.Success? <==> exists a :: 0 <= a < |s.annotation.interfaceAnns| && s.annotation.interfaceAnns[a].interface == id)
            && (r.Success? ==>
                  var t := r.value;
                  && t.addedInterfaces == RemoveAt(s.addedInterfaces, k)
                  && t.addedParameters == s.addedParameters
                  && (exists x :: 0 <= x < |s.system.interfaces| && s.system.interfaces[x].id == id
                        && t.system.interfaces == RemoveAt(s.system.interfaces, x))
                  && (forall x :: x in t.system.interfaces ==> x in s.system.interfaces)
                  && (forall i :: 0 <= i < |s.system.interfaces| && s.system.interfaces[i].id != id
                        ==> s.system.interfaces[i] in t.system.interfaces)
                  && |t.annotation.interfaceAnns| + 1 == |s.annotation.interfaceAnns|
                  && FindInterfaceAnn(s.annotation, id).Some?
                  && (var a := FindInterfaceAnn(s.annotation, id).value;
                      var remaining := RemoveFromExtractedInputs(s.annotation.inputs, id);
                      && t.annotation.interfaceAnns == RemoveAt(s.annotation.interfaceAnns, a)
                      && (forall x :: x in t.annotation.inputs ==> x in remaining)
                      && (forall x :: x in remaining && x !in t.annotation.inputs ==>
                            && x.id in InputsOf(s.annotation.interfaceAnns[a].parameterAnns)
                            && !InputReferenced(t.annotation.interfaceAnns, x.id))
                      && (InputIdsUnique(s.annotation.inputs) ==>
                            forall inputId ::
                              (inputId in InputsOf(s.annotation.interfaceAnns[a].parameterAnns)
                               && !InputReferenced(t.annotation.interfaceAnns, inputId))
                              ==> inputId !in InputIds(t.annotation.inputs)))
                  && NoExtractionFrom(t.annotation.inputs, id)
                  && t.template == s.template + [RemoveInterfaceCall(id)]))
  {
    if |s.addedInterfaces| == 0 then Failure(EmptySelection)
    else
      var k := Pick(|s.addedInterfaces|, draw);
      var id := s.addedInterfaces[k];
      var added := RemoveAt(s.addedInterfaces, k);
      match FindInterface(s.system, id)
      case None => Success(s.(addedInterfaces := added))
      case Some(x) =>
        var sys := SystemModel(RemoveAt(s.system.interfaces, x));
        match FindInterfaceAnn(s.annotation, id)
        case None => Failure(NullDereference)
        case Some(a) =>
          var ia := s.annotation.interfaceAnns[a];
          var ann1 := SystemAnnotation(RemoveAt(s.annotation.interfaceAnns, a), RemoveFromExtractedInputs(s.annotation.inputs, id));
          var ann2 := PruneInputs(ann1, InputsOf(ia.parameterAnns));
          RemoveInterfaceFacts(s.system.interfaces, x, id);
          assert InputIdsUnique(s.annotation.inputs) ==> InputIdsUnique(ann1.inputs);
          Success(State(sys, ann2, added, s.addedParameters, s.template + [RemoveInterfaceCall(id)]))
  }

  /** Removing the interface at x (whose id is `id`) keeps every interface
      with another id and adds none. */
  lemma RemoveInterfaceFacts(ifaces: seq<Interface>, x: nat, id: Id)
    requires x < |ifaces| && ifaces[x].id == id
    ensures forall y :: y in RemoveAt(ifaces, x) ==> y in ifaces
    ensures forall i :: 0 <= i < |ifaces| && ifaces[i].id != id ==> ifaces[i] in RemoveAt(ifaces, x)
  {
    forall y | y in RemoveAt(ifaces, x) ensures y in ifaces {
      RemoveAtSubset(ifaces, x, y);
    }
    forall i | 0 <= i < |ifaces| && ifaces[i].id != id ensures ifaces[i] in RemoveAt(ifaces, x) {
      RemoveAtKeepsOthers(ifaces, x, i);
    }
  }

  /** Removes the first parameter with the given id from the interface;
      an interface without such a parameter is returned as it is. */
  function RemoveParameterById(interf: Interface, parameterId: Id): (r: Interface)
    ensures r.(parameters := interf.parameters) == interf
    ensures (forall j :: 0 <= j < |interf.parameters| ==> interf.parameters[j].id != parameterId) ==> r == interf
    ensures forall j :: 0 <= j < |interf.parameters| && interf.parameters[j].id == parameterId
                     && (forall k :: 0 <= k < j ==> interf.parameters[k].id != parameterId)
                     ==> r.parameters == RemoveAt(interf.parameters, j)
  {
    match FirstIndex(interf.parameters, (p: Parameter) => p.id == parameterId)
    case None => interf
    case Some(j) => interf.(parameters := RemoveAt(interf.parameters, j))
  }

  /** The system half of REMOVE_PARAMETER: the parameter is removed from
      the first interface with the given id; with no such interface the
      model is unchanged (Java edits an interface object that is no longer
      part of the model). */
  function RemoveParameterFrom(sys: SystemModel, interfaceId: Id, parameterId: Id): (r: SystemModel)
    ensures |r.interfaces| == |sys.interfaces|
    ensures forall i :: 0 <= i < |sys.interfaces| ==> r.interfaces[i].(parameters := sys.interfaces[i].parameters) == sys.interfaces[i]
    ensures interfaceId !in InterfaceIds(sys) ==> r == sys
    ensures forall x ::
      && 0 <= x < |sys.interfaces| && sys.interfaces[x].id == interfaceId
      && (forall y :: 0 <= y < x ==> sys.interfaces[y].id != interfaceId)
      ==> r.interfaces == sys.interfaces[x := RemoveParameterById(sys.interfaces[x], parameterId)]
  {
    match FindInterface(sys, interfaceId)
    case None => sys
    case Some(x) => SystemModel(sys.interfaces[x := RemoveParameterById(sys.interfaces[x], parameterId)])
  }

  /** The annotation half of REMOVE_PARAMETER: the parameter's annotation
      leaves the first annotation of the interface and its input goes if
      nothing references it any more. A missing interface annotation or
      parameter annotation is dereferenced as null. */
  function RemoveParameterAnnotation(ann: SystemAnnotation, interfaceId: Id, parameterId: Id): (r: Result<SystemAnnotation, Error>)
    ensures r.Success? <==> exists a, b ::
      && 0 <= a < |ann.interfaceAnns| && ann.interfaceAnns[a].interface == interfaceId
      && (forall c :: 0 <= c < a ==> ann.interfaceAnns[c].interface != interfaceId)
      && 0 <= b < |ann.interfaceAnns[a].parameterAnns| && ann.interfaceAnns[a].parameterAnns[b].parameter == parameterId
    ensures r.Failure? ==> r.error == NullDereference
    ensures r.Success? ==>
      && |r.value.interfaceAnns| == |ann.interfaceAnns|
      && InputIds(r.value.inputs) <= InputIds(ann.inputs)
      && (exists a, b ::
            && 0 <= a < |ann.interfaceAnns| && ann.interfaceAnns[a].interface == interfaceId
            && 0 <= b < |ann.interfaceAnns[a].parameterAnns| && ann.interfaceAnns[a].parameterAnns[b].parameter == parameterId
            && r.value.interfaceAnns[a] == ann.interfaceAnns[a].(parameterAnns := RemoveAt(ann.interfaceAnns[a].parameterAnns, b))
            && (forall c :: 0 <= c < |ann.interfaceAnns| && c != a ==> r.value.interfaceAnns[c] == ann.interfaceAnns[c]))
    ensures FindInterfaceAnn(ann, interfaceId).Some? ==>
      var ia := ann.interfaceAnns[FindInterfaceAnn(ann, interfaceId).value];
      FindParamAnn(ia, parameterId).Some? ==>
        var b := FindParamAnn(ia, parameterId).value;
        var a := FindInterfaceAnn(ann, interfaceId).value;
        r == Success(RemoveInputIfUnused(ann.(interfaceAnns := ann.interfaceAnns[a := ia.(parameterAnns := RemoveAt(ia.parameterAnns, b))]),
                                         ia.parameterAnns[b].input))
  {
    match FindInterfaceAnn(ann, interfaceId)
    case None => Failure(NullDereference)
    case Some(a) =>
      var ia := ann.interfaceAnns[a];
      match FindParamAnn(ia, parameterId)
      case None => Failure(NullDereference)
      case Some(b) =>
        var ann1 := ann.(interfaceAnns := ann.interfaceAnns[a := ia.(parameterAnns := RemoveAt(ia.parameterAnns, b))]);
        Success(RemoveInputIfUnused(ann1, ia.parameterAnns[b].input))
  }

  /** REMOVE_PARAMETER: a registered pair is chosen and the parameter it
      names is removed from its interface, with its annotation and, if now
      unused, its input. The pair stays registered. */
  function ApplyRemoveParameter(cfg: Config, s: State, draw: nat): (r: Result<State, Error>)
    ensures r == Failure(EmptySelection) <==> |s.addedParameters| == 0
    ensures |s.addedParameters| > 0 ==>
      var pair := s.addedParameters[Pick(|s.addedParameters|, draw)];
      && (r.Success? <==> RemoveParameterAnnotation(s.annotation, pair.0, pair.1).Success?)
      && (r.Success? ==> r.value == s.(system := RemoveParameterFrom(s.system, pair.0, pair.1),
                                      annotation := RemoveParameterAnnotation(s.annotation, pair.0, pair.1).value))
  {
    if |s.addedParameters| == 0 then Failure(EmptySelection)
    else
      var (interfaceId, parameterId) := s.addedParameters[Pick(|s.addedParameters|, draw)];
      var ann :- RemoveParameterAnnotation(s.annotation, interfaceId, parameterId);
      Success(s.(system := RemoveParameterFrom(s.system, interfaceId, parameterId), annotation := ann))
  }

  /** applyChange: dispatch on the change kind. */
  function ApplyChange(cfg: Config, s: State, kind: ChangeKind, draw: nat): Result<State, Error>
  {
    match kind
    case AddInterface => ApplyAddInterface(cfg, s, draw)
    case AddParameter => ApplyAddParameter(cfg, s, draw)
    case ChangeInterfacePath => ApplyChangeInterfacePath(cfg, s, draw)
    case ChangeParameterName => ApplyChangeParameterName(cfg, s, draw)
    case RemoveInterface => ApplyRemoveInterface(cfg, s, draw)
    case RemoveParameter => ApplyRemoveParameter(cfg, s, draw)
  }
}

=== FILE: decimal.dfy ===
/** Decimal rendering of the disambiguation counter, as Java's string
    concatenation `prefix + currentIdx` renders an int. */
module Decimal {

  function DigitChar(d: nat): char
    requires d < 10
  {
    ('0' as int + d) as char
  }

  function NatToString(n: nat): (s: string)
    ensures |s| >= 1
    ensures n >= 10 ==> |s| >= 2
  {
    if n < 10 then [DigitChar(n)] else NatToString(n / 10) + [DigitChar(n % 10)]
  }

  /** Distinct counters render to distinct strings. */
  lemma {:induction false} NatToStringInjective(a: nat, b: nat)
    requires NatToString(a) == NatToString(b)
    ensures a == b
  {
    var s := NatToString(a);
    if a < 10 && b < 10 {
      assert s[0] == DigitChar(a) && NatToString(b)[0] == DigitChar(b);
    } else if a >= 10 && b >= 10 {
      assert s[|s| - 1] == DigitChar(a % 10);
      assert NatToString(b)[|s| - 1] == DigitChar(b % 10);
      assert NatToString(a / 10) == s[..|s| - 1];
      assert NatToString(b / 10) == NatToString(b)[..|s| - 1];
      NatToStringInjective(a / 10, b / 10);
    }
  }
}

=== FILE: invariants.dfy ===
/** Properties every successful edit preserves: interface paths stay
    distinct, interfaces of the loaded base model are never removed, and
    the ADD_PARAMETER registry only grows. */
module Invariants {
  import opened Wrappers
  import opened Seqs
  import opened Model
  import opened Changer

  // ---------------------------------------------------------------------
  // Distinct paths

  lemma RemoveAtKeepsPathsDistinct(ifaces: seq<Interface>, x: nat)
    requires x < |ifaces|
    requires PathsDistinct(SystemModel(ifaces))
    ensures PathsDistinct(SystemModel(RemoveAt(ifaces, x)))
  {
    var r := RemoveAt(ifaces, x);
    forall i, j | 0 <= i < j < |r| ensures r[i].path != r[j].path {
      var i' := if i < x then i else i + 1;
      var j' := if j < x then j else j + 1;
      assert r[i] == ifaces[i'] && r[j] == ifaces[j'] && i' < j';
    }
  }

  /** Edits that leave every interface's path where it was. */
  lemma SamePathsKeepDistinct(s: SystemModel, t: SystemModel)
    requires PathsDistinct(s)
    requires |t.interfaces| == |s.interfaces|
    requires forall i :: 0 <= i < |s.interfaces| ==> t.interfaces[i].path == s.interfaces[i].path
    ensures PathsDistinct(t)
  {
  }

  lemma PathsAfterAddInterface(cfg: Config, s: State, draw: nat)
    requires PathsDistinct(s.system)
    requires ApplyAddInterface(cfg, s, draw).Success?
    ensures PathsDistinct(ApplyAddInterface(cfg, s, draw).value.system)
  {
    var t := ApplyAddInterface(cfg, s, draw).value;
    var n := |s.system.interfaces|;
    forall i, j | 0 <= i < j < |t.system.interfaces|
      ensures t.system.interfaces[i].path != t.system.interfaces[j].path
    {
      assert t.system.interfaces[i] == t.system.interfaces[..n][i] == s.system.interfaces[i];
      if j < n {
        assert t.system.interfaces[j] == t.system.interfaces[..n][j];
      }
    }
  }

  lemma PathsAfterAddParameter(cfg: Config, s: State, draw: nat)
    requires PathsDistinct(s.system)
    requires ApplyAddParameter(cfg, s, draw).Success?
    ensures PathsDistinct(ApplyAddParameter(cfg, s, draw).value.system)
  {
    var t := ApplyAddParameter(cfg, s, draw).value;
    var i, j :| 0 <= i < |s.system.interfaces| && 0 <= j < |s.system.interfaces[i].parameters| && ParameterClonedAt(s, t, i, j);
    ClonedKeepsPaths(s, t, i, j);
  }

  lemma ClonedKeepsPaths(s: State, t: State, i: nat, j: nat)
    requires i < |s.system.interfaces| && j < |s.system.interfaces[i].parameters|
    requires PathsDistinct(s.system) && ParameterClonedAt(s, t, i, j)
    ensures PathsDistinct(t.system)
  {
    assert t.system.interfaces[i].path == t.system.interfaces[i].(parameters := s.system.interfaces[i].parameters).path;
    SamePathsKeepDistinct(s.system, t.system);
  }

  lemma PathsAfterChangeInterfacePath(cfg: Config, s: State, draw: nat)
    requires PathsDistinct(s.system)
    requires ApplyChangeInterfacePath(cfg, s, draw).Success?
    ensures PathsDistinct(ApplyChangeInterfacePath(cfg, s, draw).value.system)
  {
    var t := ApplyChangeInterfacePath(cfg, s, draw).value;
    var n := |s.system.interfaces|;
    var k :| 0 <= k < n
      && t.system.interfaces[k].path !in UsedPaths(s.system)
      && t.system.interfaces[k].(path := s.system.interfaces[k].path) == s.system.interfaces[k]
      && forall m :: 0 <= m < n && m != k ==> t.system.interfaces[m] == s.system.interfaces[m];
    forall i, j | 0 <= i < j < n
      ensures t.system.interfaces[i].path != t.system.interfaces[j].path
    {
      if i == k {
        assert s.system.interfaces[j].path in UsedPaths(s.system);
      } else if j == k {
        assert s.system.interfaces[i].path in UsedPaths(s.system);
      }
    }
  }

  lemma PathsAfterChangeParameterName(cfg: Config, s: State, draw: nat)
    requires PathsDistinct(s.system)
    requires ApplyChangeParameterName(cfg, s, draw).Success?
    ensures PathsDistinct(ApplyChangeParameterName(cfg, s, draw).value.system)
  {
    var t := ApplyChangeParameterName(cfg, s, draw).value;
    var i, j :| 0 <= i < |s.system.interfaces| && 0 <= j < |s.system.interfaces[i].parameters| && ParameterRenamedAt(s, t, i, j);
    RenamedKeepsPaths(s, t, i, j);
  }

  lemma RenamedKeepsPaths(s: State, t: State, i: nat, j: nat)
    requires i < |s.system.interfaces| && j < |s.system.interfaces[i].parameters|
    requires PathsDistinct(s.system) && ParameterRenamedAt(s, t, i, j)
    ensures PathsDistinct(t.system)
  {
    assert t.system.interfaces[i].path == t.system.interfaces[i].(parameters := s.system.interfaces[i].parameters).path;
    SamePathsKeepDistinct(s.system, t.system);
  }

  lemma PathsAfterRemoveInterface(cfg: Config, s: State, draw: nat)
    requires PathsDistinct(s.system)
    requires ApplyRemoveInterface(cfg, s, draw).Success?
    ensures PathsDistinct(ApplyRemoveInterface(cfg, s, draw).value.system)
  {
    var t := ApplyRemoveInterface(cfg, s, draw).value;
    var id := s.addedInterfaces[Pick(|s.addedInterfaces|, draw)];
    if id in InterfaceIds(s.system) {
      var x :| 0 <= x < |s.system.interfaces| && s.system.interfaces[x].id == id
        && t.system.interfaces == RemoveAt(s.system.interfaces, x);
      RemoveAtKeepsPathsDistinct(s.system.interfaces, x);
    }
  }

  lemma PathsAfterRemoveParameter(cfg: Config, s: State, draw: nat)
    requires PathsDistinct(s.system)
    requires ApplyRemoveParameter(cfg, s, draw).Success?
    ensures PathsDistinct(ApplyRemoveParameter(cfg, s, draw).value.system)
  {
    var t := ApplyRemoveParameter(cfg, s, draw).value;
    forall i | 0 <= i < |s.system.interfaces| ensures t.system.interfaces[i].path == s.system.interfaces[i].path {
      assert t.system.interfaces[i].path == t.system.interfaces[i].(parameters := s.system.interfaces[i].parameters).path;
    }
    SamePathsKeepDistinct(s.system, t.system);
  }

  /** Every successful edit keeps interface paths pairwise distinct. */
  lemma ApplyKeepsPathsDistinct(cfg: Config, s: State, kind: ChangeKind, draw: nat)
    ensures PathsDistinct(s.system) && ApplyChange(cfg, s, kind, draw).Success? ==>
      PathsDistinct(ApplyChange(cfg, s, kind, draw).value.system)
  {
    if !PathsDistinct(s.system) || ApplyChange(cfg, s, kind, draw).Failure? {
      return;
    }
    match kind
    case AddInterface => PathsAfterAddInterface(cfg, s, draw);
    case AddParameter => PathsAfterAddParameter(cfg, s, draw);
    case ChangeInterfacePath => PathsAfterChangeInterfacePath(cfg, s, draw);
    case ChangeParameterName => PathsAfterChangeParameterName(cfg, s, draw);
    case RemoveInterface => PathsAfterRemoveInterface(cfg, s, draw);
    case RemoveParameter => PathsAfterRemoveParameter(cfg, s, draw);
  }

  // ---------------------------------------------------------------------
  // Base interfaces survive

  /** The interfaces with ids in `base` are all present, and none of those
      ids is registered as added (hence removable). */
  ghost predicate BaseIntact(s: State, base: set<Id>)
  {
    && base <= InterfaceIds(s.system)
    && forall x :: x in s.addedInterfaces ==> x !in base
  }

  lemma SameIdsKeepBase(s: State, t: State, base: set<Id>)
    requires BaseIntact(s, base)
    requires t.addedInterfaces == s.addedInterfaces
    requires |t.system.interfaces| == |s.system.interfaces|
    requires forall i :: 0 <= i < |s.system.interfaces| ==> t.system.interfaces[i].id == s.system.interfaces[i].id
    ensures BaseIntact(t, base)
  {
    assert InterfaceIds(s.system) <= InterfaceIds(t.system) by {
      forall x | x in InterfaceIds(s.system) ensures x in InterfaceIds(t.system) {
        var i :| 0 <= i < |s.system.interfaces| && s.system.interfaces[i].id == x;
        assert t.system.interfaces[i].id == x;
      }
    }
  }

  lemma BaseAfterAddInterface(cfg: Config, s: State, draw: nat, base: set<Id>)
    requires BaseIntact(s, base)
    requires ApplyAddInterface(cfg, s, draw).Success?
    ensures BaseIntact(ApplyAddInterface(cfg, s, draw).value, base)
  {
    var t := ApplyAddInterface(cfg, s, draw).value;
    var n := |s.system.interfaces|;
    assert InterfaceIds(s.system) <= InterfaceIds(t.system) by {
      forall x | x in InterfaceIds(s.system) ensures x in InterfaceIds(t.system) {
        var i :| 0 <= i < n && s.system.interfaces[i].id == x;
        assert t.system.interfaces[i] == t.system.interfaces[..n][i];
      }
    }
    assert t.system.interfaces[n].id !in InterfaceIds(s.system);
  }

  lemma BaseAfterAddParameter(cfg: Config, s: State, draw: nat, base: set<Id>)
    requires BaseIntact(s, base)
    requires ApplyAddParameter(cfg, s, draw).Success?
    ensures BaseIntact(ApplyAddParameter(cfg, s, draw).value, base)
  {
    var t := ApplyAddParameter(cfg, s, draw).value;
    var i, j :| 0 <= i < |s.system.interfaces| && 0 <= j < |s.system.interfaces[i].parameters| && ParameterClonedAt(s, t, i, j);
    ClonedKeepsBase(s, t, i, j, base);
  }

  lemma ClonedKeepsBase(s: State, t: State, i: nat, j: nat, base: set<Id>)
    requires i < |s.system.interfaces| && j < |s.system.interfaces[i].parameters|
    requires BaseIntact(s, base) && ParameterClonedAt(s, t, i, j)
    ensures BaseIntact(t, base)
  {
    assert t.system.interfaces[i].id == t.system.interfaces[i].(parameters := s.system.interfaces[i].parameters).id;
    SameIdsKeepBase(s, t, base);
  }

  lemma BaseAfterChangeInterfacePath(cfg: Config, s: State, draw: nat, base: set<Id>)
    requires BaseIntact(s, base)
    requires ApplyChangeInterfacePath(cfg, s, draw).Success?
    ensures BaseIntact(ApplyChangeInterfacePath(cfg, s, draw).value, base)
  {
    var t := ApplyChangeInterfacePath(cfg, s, draw).value;
    var n := |s.system.interfaces|;
    var k :| 0 <= k < n
      && t.system.interfaces[k].path !in UsedPaths(s.system)
      && t.system.interfaces[k].(path := s.system.interfaces[k].path) == s.system.interfaces[k]
      && forall m :: 0 <= m < n && m != k ==> t.system.interfaces[m] == s.system.interfaces[m];
    assert t.system.interfaces[k].id == s.system.interfaces[k].id;
    SameIdsKeepBase(s, t, base);
  }

  lemma BaseAfterChangeParameterName(cfg: Config, s: State, draw: nat, base: set<Id>)
    requires BaseIntact(s, base)
    requires ApplyChangeParameterName(cfg, s, draw).Success?
    ensures BaseIntact(ApplyChangeParameterName(cfg, s, draw).value, base)
  {
    var t := ApplyChangeParameterName(cfg, s, draw).value;
    var i, j :| 0 <= i < |s.system.interfaces| && 0 <= j < |s.system.interfaces[i].parameters| && ParameterRenamedAt(s, t, i, j);
    assert t.system.interfaces[i].id == t.system.interfaces[i].(parameters := s.system.interfaces[i].parameters).id;
    SameIdsKeepBase(s, t, base);
  }

  lemma BaseAfterRemoveInterface(cfg: Config, s: State, draw: nat, base: set<Id>)
    requires BaseIntact(s, base)
    requires ApplyRemoveInterface(cfg, s, draw).Success?
    ensures BaseIntact(ApplyRemoveInterface(cfg, s, draw).value, base)
  {
    var t := ApplyRemoveInterface(cfg, s, draw).value;
    var k := Pick(|s.addedInterfaces|, draw);
    var id := s.addedInterfaces[k];
    assert id !in base;
    forall x | x in t.addedInterfaces ensures x !in base {
      RemoveAtSubset(s.addedInterfaces, k, x);
    }
    if id in InterfaceIds(s.system) {
      forall b | b in base ensures b in InterfaceIds(t.system) {
        var i :| 0 <= i < |s.system.interfaces| && s.system.interfaces[i].id == b;
        assert s.system.interfaces[i] in t.system.interfaces;
        var m :| 0 <= m < |t.system.interfaces| && t.system.interfaces[m] == s.system.interfaces[i];
      }
    }
  }

  lemma BaseAfterRemoveParameter(cfg: Config, s: State, draw: nat, base: set<Id>)
    requires BaseIntact(s, base)
    requires ApplyRemoveParameter(cfg, s, draw).Success?
    ensures BaseIntact(ApplyRemoveParameter(cfg, s, draw).value, base)
  {
    var t := ApplyRemoveParameter(cfg, s, draw).value;
    forall i | 0 <= i < |s.system.interfaces| ensures t.system.interfaces[i].id == s.system.interfaces[i].id {
      assert t.system.interfaces[i].id == t.system.interfaces[i].(parameters := s.system.interfaces[i].parameters).id;
    }
    SameIdsKeepBase(s, t, base);
  }

  /** No successful edit removes an interface of the base model or makes
      one removable: REMOVE_INTERFACE only picks registered clones. */
  lemma ApplyKeepsBase(cfg: Config, s: State, kind: ChangeKind, draw: nat, base: set<Id>)
    ensures BaseIntact(s, base) && ApplyChange(cfg, s, kind, draw).Success? ==>
      BaseIntact(ApplyChange(cfg, s, kind, draw).value, base)
  {
    if !BaseIntact(s, base) || ApplyChange(cfg, s, kind, draw).Failure? {
      return;
    }
    match kind
    case AddInterface => BaseAfterAddInterface(cfg, s, draw, base);
    case AddParameter => BaseAfterAddParameter(cfg, s, draw, base);
    case ChangeInterfacePath => BaseAfterChangeInterfacePath(cfg, s, draw, base);
    case ChangeParameterName => BaseAfterChangeParameterName(cfg, s, draw, base);
    case RemoveInterface => BaseAfterRemoveInterface(cfg, s, draw, base);
    case RemoveParameter => BaseAfterRemoveParameter(cfg, s, draw, base);
  }

  // ---------------------------------------------------------------------
  // The ADD_PARAMETER registry

  /** `t`'s registry starts with all of `s`'s entries, in order. */
  ghost predicate RegistryExtends(s: State, t: State)
  {
    |s.addedParameters| <= |t.addedParameters| && t.addedParameters[..|s.addedParameters|] == s.addedParameters
  }

  lemma RegistryAfterAddParameter(cfg: Config, s: State, draw: nat)
    requires ApplyAddParameter(cfg, s, draw).Success?
    ensures RegistryExtends(s, ApplyAddParameter(cfg, s, draw).value)
  {
    var t := ApplyAddParameter(cfg, s, draw).value;
    var i, j :| 0 <= i < |s.system.interfaces| && 0 <= j < |s.system.interfaces[i].parameters| && ParameterClonedAt(s, t, i, j);
  }

  lemma RegistryAfterChangeParameterName(cfg: Config, s: State, draw: nat)
    requires ApplyChangeParameterName(cfg, s, draw).Success?
    ensures RegistryExtends(s, ApplyChangeParameterName(cfg, s, draw).value)
  {
    var t := ApplyChangeParameterName(cfg, s, draw).value;
    var i, j :| 0 <= i < |s.system.interfaces| && 0 <= j < |s.system.interfaces[i].parameters| && ParameterRenamedAt(s, t, i, j);
  }

  /** Entries of the ADD_PARAMETER registry are never dropped, not even by
      REMOVE_PARAMETER, which may therefore pick the same pair again. */
  lemma ApplyKeepsAddedParameters(cfg: Config, s: State, kind: ChangeKind, draw: nat)
    ensures ApplyChange(cfg, s, kind, draw).Success? ==> RegistryExtends(s, ApplyChange(cfg, s, kind, draw).value)
  {
    if ApplyChange(cfg, s, kind, draw).Failure? {
      return;
    }
    match kind
    case AddParameter => RegistryAfterAddParameter(cfg, s, draw);
    case ChangeParameterName => RegistryAfterChangeParameterName(cfg, s, draw);
    case _ =>
  }

  /** No two interfaces share an id. */
  ghost predicate InterfaceIdsUnique(sys: SystemModel)
  {
    forall a, b :: 0 <= a < b < |sys.interfaces| ==> sys.interfaces[a].id != sys.interfaces[b].id
  }

  /** No two parameters of one interface share an id. */
  ghost predicate ParameterIdsUnique(sys: SystemModel)
  {
    forall i, a, b :: 0 <= i < |sys.interfaces| && 0 <= a < b < |sys.interfaces[i].parameters|
      ==> sys.interfaces[i].parameters[a].id != sys.interfaces[i].parameters[b].id
  }

  /** Because the registry holds the ORIGINAL pair, a REMOVE_PARAMETER that
      picks the entry ADD_PARAMETER has just made removes the parameter that
      was cloned, which may belong to the loaded base model, and keeps the
      clone. */
  lemma RemoveParameterTakesOriginal(cfg: Config, s: State, t: State, u: State, addDraw: nat, removeDraw: nat)
    requires InterfaceIdsUnique(s.system) && ParameterIdsUnique(s.system)
    requires ApplyAddParameter(cfg, s, addDraw) == Success(t)
    requires Pick(|s.addedParameters| + 1, removeDraw) == |s.addedParameters|
    requires ApplyRemoveParameter(cfg, t, removeDraw) == Success(u)
    ensures exists i, j ::
      && 0 <= i < |s.system.interfaces| && 0 <= j < |s.system.interfaces[i].parameters|
      && ParameterClonedAt(s, t, i, j)
      && u.system.interfaces[i].parameters
         == RemoveAt(s.system.interfaces[i].parameters, j) + [t.system.interfaces[i].parameters[|s.system.interfaces[i].parameters|]]
  {
    var i, j :| 0 <= i < |s.system.interfaces| && 0 <= j < |s.system.interfaces[i].parameters| && ParameterClonedAt(s, t, i, j);
    var pair := t.addedParameters[|s.addedParameters|];
    assert t.addedParameters[Pick(|t.addedParameters|, removeDraw)] == pair;
    assert u.system == RemoveParameterFrom(t.system, pair.0, pair.1);
    RemoveClonedEntry(s, t, i, j);
  }

  /** The system side of RemoveParameterTakesOriginal, for any `u` that
      REMOVE_PARAMETER can produce from `t` when it picks the last entry. */
  lemma RemoveClonedEntry(s: State, t: State, i: nat, j: nat)
    requires InterfaceIdsUnique(s.system) && ParameterIdsUnique(s.system)
    requires i < |s.system.interfaces| && j < |s.system.interfaces[i].parameters|
    requires ParameterClonedAt(s, t, i, j)
    ensures var pair := t.addedParameters[|s.addedParameters|];
      RemoveParameterFrom(t.system, pair.0, pair.1).interfaces[i].parameters
      == RemoveAt(s.system.interfaces[i].parameters, j) + [t.system.interfaces[i].parameters[|s.system.interfaces[i].parameters|]]
  {
    var ps := s.system.interfaces[i].parameters;
    var p := ps[j];
    var q := t.system.interfaces[i].parameters[|ps|];
    var pair := t.addedParameters[|s.addedParameters|];
    assert pair == (s.system.interfaces[i].id, p.id);
    assert t.system.interfaces[i].id == s.system.interfaces[i].id;
    forall y | 0 <= y < i ensures t.system.interfaces[y].id != pair.0 {
      assert t.system.interfaces[y] == s.system.interfaces[y];
    }
    var tp := t.system.interfaces[i].parameters;
    assert tp == tp[..|ps|] + tp[|ps|..];
    assert tp[|ps|..] == [q];
    assert p.id in ParameterIds(s.system);
    assert q.id != p.id;
    forall k | 0 <= k < j ensures tp[k].id != p.id {
      assert tp[k] == ps[k];
    }
    var removed := RemoveParameterById(t.system.interfaces[i], pair.1);
    assert removed.parameters == RemoveAt(tp, j);
    assert RemoveParameterFrom(t.system, pair.0, pair.1).interfaces[i] == removed;
    assert RemoveAt(tp, j) == RemoveAt(ps, j) + [q];
  }
}

=== FILE: model.dfy ===
/** The two cross-referencing graphs ApiChanger mutates: the system model
    (HTTP interfaces and their parameters) and the system annotation
    (interface and parameter annotations plus the shared inputs). Weak
    references are plain ids resolved by lookup. */
module Model {
  import opened Wrappers
  import opened Seqs

  type Id = string

  /** HttpParameterType; only URL_PART is singled out by the engine, the
      other values are carried by name. */
  datatype ParameterType = UrlPart | OtherParameterType(name: string)

  datatype Parameter = Parameter(id: Id, name: string, kind: ParameterType)

  datatype Interface = Interface(
    id: Id,
    domain: string,
    protocol: string,
    httpMethod: string,
    port: string,
    encoding: string,
    headers: seq<string>,
    path: string,
    parameters: seq<Parameter>)

  datatype SystemModel = SystemModel(interfaces: seq<Interface>)

  /** A RegExExtraction; `from` is the weak reference to the interface
      whose response is matched. */
  datatype Extraction = Extraction(
    pattern: string,
    matchNumber: int,
    responseKey: string,
    template: string,
    fallbackValue: string,
    from: Id)

  /** The Input variants. `UnhandledInput` stands for any other subclass,
      which ApiChanger.cloneInput does not know how to copy. */
  datatype Input =
    | DirectInput(id: Id, data: seq<string>)
    | CounterInput(id: Id, start: int, increment: int, maximum: int, format: string, scope: string)
    | ExtractedInput(id: Id, initialValue: string, extractions: seq<Extraction>)
    | UnhandledInput(id: Id)

  /** A ParameterAnnotation: weak reference to its parameter and the id of
      its (possibly shared) input. */
  datatype ParamAnn = ParamAnn(parameter: Id, overrides: seq<string>, input: Id)

  datatype InterfaceAnn = InterfaceAnn(interface: Id, overrides: seq<string>, parameterAnns: seq<ParamAnn>)

  datatype SystemAnnotation = SystemAnnotation(interfaceAnns: seq<InterfaceAnn>, inputs: seq<Input>)

  /** Why a change aborts the run: `EmptySelection` is Random.nextInt(0)
      on an empty candidate list, `NullDereference` a lookup that returned
      null and was then dereferenced, `NoSuchElement` Optional.get on an
      empty stream, `UnresolvedInput` an input id that names no input. */
  datatype Error = EmptySelection | NullDereference | NoSuchElement | UnresolvedInput

  /** The exclusion patterns and the regular-expression matcher
      (String.matches) they are applied with. */
  datatype Config = Config(excludedPatterns: seq<string>, matches: (string, string) -> bool)

  /** isIncluded: excluded exactly when the id is present and matches one
      of the patterns. */
  function IsIncluded(cfg: Config, id: Option<Id>): (b: bool)
    ensures !b <==> (id.Some? && exists k :: 0 <= k < |cfg.excludedPatterns| && cfg.matches(id.value, cfg.excludedPatterns[k]))
  {
    IncludedFrom(cfg, id, 0)
  }

  /** The pattern loop of isIncluded, from pattern `k` on. */
  function IncludedFrom(cfg: Config, id: Option<Id>, k: nat): (b: bool)
    requires k <= |cfg.excludedPatterns|
    ensures !b <==> (id.Some? && exists j :: k <= j < |cfg.excludedPatterns| && cfg.matches(id.value, cfg.excludedPatterns[j]))
    decreases |cfg.excludedPatterns| - k
  {
    if k == |cfg.excludedPatterns| then true
    else if id.Some? && cfg.matches(id.value, cfg.excludedPatterns[k]) then false
    else IncludedFrom(cfg, id, k + 1)
  }

  /** getUsedPaths: the current path of every interface. */
  function UsedPaths(sys: SystemModel): (r: set<string>)
    ensures forall i :: 0 <= i < |sys.interfaces| ==> sys.interfaces[i].path in r
    ensures forall p :: p in r ==> exists i :: 0 <= i < |sys.interfaces| && sys.interfaces[i].path == p
  {
    set i | 0 <= i < |sys.interfaces| :: sys.interfaces[i].path
  }

  function InterfaceIds(sys: SystemModel): set<Id>
  {
    set i | 0 <= i < |sys.interfaces| :: sys.interfaces[i].id
  }

  function ParameterIds(sys: SystemModel): set<Id>
  {
    set i, j | 0 <= i < |sys.interfaces| && 0 <= j < |sys.interfaces[i].parameters| :: sys.interfaces[i].parameters[j].id
  }

  function InputIds(inputs: seq<Input>): set<Id>
  {
    set k | 0 <= k < |inputs| :: inputs[k].id
  }

  /** getUsedIds: every id carried by an interface, a parameter or an input. */
  function UsedIds(sys: SystemModel, ann: SystemAnnotation): set<Id>
  {
    InterfaceIds(sys) + ParameterIds(sys) + InputIds(ann.inputs)
  }

  /** The first interface with the given id (WeakReference.resolve). */
  function FindInterface(sys: SystemModel, id: Id): (r: Option<nat>)
    ensures r.Some? ==> r.value < |sys.interfaces| && sys.interfaces[r.value].id == id
    ensures r.None? <==> id !in InterfaceIds(sys)
  {
    FirstIndex(sys.interfaces, (i: Interface) => i.id == id)
  }

  /** findAnnotation(HttpInterface): the first interface annotation
      referring to the interface id, if any. */
  function FindInterfaceAnn(ann: SystemAnnotation, interfaceId: Id): (r: Option<nat>)
    ensures r.Some? ==> r.value < |ann.interfaceAnns| && ann.interfaceAnns[r.value].interface == interfaceId
    ensures r.Some? ==> forall j :: 0 <= j < r.value ==> ann.interfaceAnns[j].interface != interfaceId
    ensures r.None? ==> forall j :: 0 <= j < |ann.interfaceAnns| ==> ann.interfaceAnns[j].interface != interfaceId
  {
    FirstIndex(ann.interfaceAnns, (a: InterfaceAnn) => a.interface == interfaceId)
  }

  /** findAnnotation(HttpParameter, InterfaceAnnotation): the first parameter
      annotation of `ia` referring to the parameter id, if any. */
  function FindParamAnn(ia: InterfaceAnn, parameterId: Id): (r: Option<nat>)
    ensures r.Some? ==> r.value < |ia.parameterAnns| && ia.parameterAnns[r.value].parameter == parameterId
    ensures r.Some? ==> forall j :: 0 <= j < r.value ==> ia.parameterAnns[j].parameter != parameterId
    ensures r.None? ==> forall j :: 0 <= j < |ia.parameterAnns| ==> ia.parameterAnns[j].parameter != parameterId
  {
    FirstIndex(ia.parameterAnns, (a: ParamAnn) => a.parameter == parameterId)
  }

  /** The input an annotation's input id resolves to. */
  function FindInput(inputs: seq<Input>, id: Id): (r: Option<nat>)
    ensures r.Some? ==> r.value < |inputs| && inputs[r.value].id == id
    ensures r.Some? ==> forall j :: 0 <= j < r.value ==> inputs[j].id != id
    ensures r.None? <==> id !in InputIds(inputs)
  {
    FirstIndex(inputs, (x: Input) => x.id == id)
  }

  /** Inputs appended after a resolvable id do not change where it resolves. */
  lemma FindInputPrefix(inputs: seq<Input>, longer: seq<Input>, id: Id)
    requires |inputs| <= |longer| && longer[..|inputs|] == inputs
    requires id in InputIds(inputs)
    ensures FindInput(longer, id) == FindInput(inputs, id)
  {
    var k := FindInput(inputs, id).value;
    assert longer[k] == inputs[k];
    assert forall j :: 0 <= j < k ==> longer[j] == inputs[j];
  }

  /** No two inputs share an id. */
  ghost predicate InputIdsUnique(inputs: seq<Input>)
  {
    forall a, b :: 0 <= a < b < |inputs| ==> inputs[a].id != inputs[b].id
  }

  /** No two interfaces share a path. */
  ghost predicate PathsDistinct(sys: SystemModel)
  {
    forall i, j :: 0 <= i < j < |sys.interfaces| ==> sys.interfaces[i].path != sys.interfaces[j].path
  }
}

=== FILE: seqs.dfy ===
/** Small sequence helpers standing in for java.util.List operations. */
module Seqs {
  import opened Wrappers

  /** Position of the first element satisfying `p`, as a linear search
      over a list returns it; None when no element does. */
  function FirstIndex<T>(s: seq<T>, p: T -> bool): (r: Option<nat>)
    ensures r.Some? ==> r.value < |s| && p(s[r.value])
    ensures r.Some? ==> forall j :: 0 <= j < r.value ==> !p(s[j])
    ensures r.None? ==> forall j :: 0 <= j < |s| ==> !p(s[j])
  {
    if |s| == 0 then None
    else if p(s[0]) then Some(0)
    else match FirstIndex(s[1..], p)
      case None => None
      case Some(k) => Some(k + 1)
  }

  /** The list with the element at position `k` taken out (List.remove). */
  function RemoveAt<T>(s: seq<T>, k: nat): (r: seq<T>)
    requires k < |s|
    ensures |r| + 1 == |s|
    ensures forall j :: 0 <= j < k ==> r[j] == s[j]
    ensures forall j :: k <= j < |r| ==> r[j] == s[j + 1]
  {
    s[..k] + s[k + 1..]
  }

  /** Every element other than the one at `k` survives RemoveAt. */
  lemma RemoveAtKeepsOthers<T>(s: seq<T>, k: nat, j: nat)
    requires k < |s| && j < |s| && j != k
    ensures s[j] in RemoveAt(s, k)
  {
    if j < k {
      assert RemoveAt(s, k)[j] == s[j];
    } else {
      assert RemoveAt(s, k)[j - 1] == s[j];
    }
  }

  /** Every element of RemoveAt comes from the original list. */
  lemma RemoveAtSubset<T>(s: seq<T>, k: nat, x: T)
    requires k < |s|
    requires x in RemoveAt(s, k)
    ensures x in s
  {
    var r := RemoveAt(s, k);
    var j :| 0 <= j < |r| && r[j] == x;
    if j < k {
      assert s[j] == x;
    } else {
      assert s[j + 1] == x;
    }
  }
}

=== FILE: versions.dfy ===
/** ApiChanger.addChanges: draw 18 group sizes in [1, 5), apply the flat
    change plan one change at a time, and take a version snapshot at every
    group boundary and after the last change. A snapshot is an event
    (version, state) rather than a write to disk. */
module Versions {
  import opened Wrappers
  import opened Model
  import opened Changer
  import opened Invariants

  const NumIterations: nat := 18
  const ChangeNumLowerBound: nat := 1
  const ChangeNumUpperBound: nat := 5
  /** The version the loaded model carries; the first snapshot is BaseVersion + 1. */
  const BaseVersion: nat := 2

  datatype Snapshot = Snapshot(version: nat, state: State)

  /** The state ApiChanger's constructor sets up: nothing added yet. */
  function Initial(sys: SystemModel, ann: SystemAnnotation): State
  {
    State(sys, ann, [], [], [])
  }

  /** The group sizes: each draw stands for Random.nextInt(upper - lower),
      shifted by the lower bound. */
  function GroupSizes(draws: seq<nat>): (counts: seq<nat>)
    ensures |counts| == |draws|
    ensures forall g :: 0 <= g < |counts| ==> ChangeNumLowerBound <= counts[g] < ChangeNumUpperBound
  {
    seq(|draws|, g requires 0 <= g < |draws| =>
      draws[g] % (ChangeNumUpperBound - ChangeNumLowerBound) + ChangeNumLowerBound)
  }

  /** The number of changes in the first g groups. */
  function PrefixSum(counts: seq<nat>, g: nat): nat
    requires g <= |counts|
  {
    if g == 0 then 0 else PrefixSum(counts, g - 1) + counts[g - 1]
  }

  /** The plan length: the sum of all group sizes. */
  function Sum(counts: seq<nat>): nat
  {
    PrefixSum(counts, |counts|)
  }

  lemma {:induction false} PrefixSumMonotone(counts: seq<nat>, g: nat, h: nat)
    requires g <= h <= |counts|
    ensures PrefixSum(counts, g) <= PrefixSum(counts, h)
    decreases h
  {
    if g < h {
      PrefixSumMonotone(counts, g, h - 1);
    }
  }

  /** The position in the plan where group g starts. */
  function Boundary(counts: seq<nat>, g: nat): (b: nat)
    requires g <= |counts|
    ensures b <= Sum(counts)
    ensures g == |counts| ==> b == Sum(counts)
  {
    PrefixSumMonotone(counts, g, |counts|);
    PrefixSum(counts, g)
  }

  lemma BoundaryStep(counts: seq<nat>, g: nat)
    requires g < |counts|
    ensures Boundary(counts, g + 1) == Boundary(counts, g) + counts[g]
  {
  }

  /** With every group non-empty, later boundaries lie strictly further on. */
  lemma {:induction false} BoundaryStrict(counts: seq<nat>, g: nat, h: nat)
    requires forall k :: 0 <= k < |counts| ==> counts[k] >= 1
    requires g < h <= |counts|
    ensures Boundary(counts, g) < Boundary(counts, h)
  {
    BoundaryStep(counts, h - 1);
    if g < h - 1 {
      BoundaryStrict(counts, g, h - 1);
    }
  }

  /** With every group size in [1, 5), the plan has between one and four
      changes per group. */
  lemma {:induction false} SumBounds(counts: seq<nat>)
    requires forall k :: 0 <= k < |counts| ==> ChangeNumLowerBound <= counts[k] < ChangeNumUpperBound
    ensures |counts| <= Sum(counts) <= 4 * |counts|
  {
    PrefixSumBounds(counts, |counts|);
  }

  lemma {:induction false} PrefixSumBounds(counts: seq<nat>, g: nat)
    requires g <= |counts|
    requires forall k :: 0 <= k < |counts| ==> ChangeNumLowerBound <= counts[k] < ChangeNumUpperBound
    ensures g <= PrefixSum(counts, g) <= 4 * g
  {
    if g > 0 {
      PrefixSumBounds(counts, g - 1);
    }
  }

  /** The plan holds between 18 and 72 changes. */
  lemma PlanLengthBounds(draws: seq<nat>)
    requires |draws| == NumIterations
    ensures NumIterations * ChangeNumLowerBound <= Sum(GroupSizes(draws)) <= NumIterations * (ChangeNumUpperBound - 1)
  {
    SumBounds(GroupSizes(draws));
  }

  /** One change of the plan: the change kind and its random draw. */
  type Step = (State, ChangeKind, nat) -> Result<State, Error>

  /** The state after the first n changes of the plan under `step`, or the
      error that aborted the run. */
  function Run(step: Step, s: State, kinds: seq<ChangeKind>, draws: seq<nat>, n: nat): Result<State, Error>
    requires n <= |kinds| && |draws| == |kinds|
  {
    if n == 0 then Success(s)
    else
      var t :- Run(step, s, kinds, draws, n - 1);
      step(t, kinds[n - 1], draws[n - 1])
  }

  /** The engine's own step: ApplyChange under the run's configuration. */
  function Engine(cfg: Config): Step
  {
    (t: State, kind: ChangeKind, draw: nat) => ApplyChange(cfg, t, kind, draw)
  }

  /** Once a change fails, every longer prefix fails with the same error. */
  lemma {:induction false} RunFailureSticks(step: Step, s: State, kinds: seq<ChangeKind>, draws: seq<nat>, n: nat, m: nat)
    requires n <= m <= |kinds| && |draws| == |kinds|
    requires Run(step, s, kinds, draws, n).Failure?
    ensures Run(step, s, kinds, draws, m) == Run(step, s, kinds, draws, n)
    decreases m
  {
    if m > n {
      RunFailureSticks(step, s, kinds, draws, n, m - 1);
    }
  }

  /** `inv` survives every successful step. */
  ghost predicate Preserves(step: Step, inv: State -> bool)
  {
    forall t: State, kind: ChangeKind, draw: nat :: inv(t) && step(t, kind, draw).Success? ==> inv(step(t, kind, draw).value)
  }

  /** A successful prefix extends by exactly one step. */
  lemma RunStep(step: Step, s: State, kinds: seq<ChangeKind>, draws: seq<nat>, n: nat)
    requires n < |kinds| && |draws| == |kinds|
    requires Run(step, s, kinds, draws, n).Success?
    ensures Run(step, s, kinds, draws, n + 1) == step(Run(step, s, kinds, draws, n).value, kinds[n], draws[n])
  {
  }

  /** An invariant every step preserves holds of every state the run reaches. */
  lemma {:induction false} RunKeeps(step: Step, inv: State -> bool, s: State, kinds: seq<ChangeKind>, draws: seq<nat>, n: nat)
    requires n <= |kinds| && |draws| == |kinds|
    requires Preserves(step, inv) && inv(s)
    requires Run(step, s, kinds, draws, n).Success?
    ensures inv(Run(step, s, kinds, draws, n).value)
  {
    if n > 0 {
      RunKeeps(step, inv, s, kinds, draws, n - 1);
      var t := Run(step, s, kinds, draws, n - 1).value;
      assert Run(step, s, kinds, draws, n) == step(t, kinds[n - 1], draws[n - 1]);
    }
  }

  /** Every change keeps interface paths distinct. */
  lemma EngineKeepsPathsDistinct(cfg: Config)
    ensures Preserves(Engine(cfg), (t: State) => PathsDistinct(t.system))
  {
    forall t: State, kind: ChangeKind, draw: nat | PathsDistinct(t.system) && Engine(cfg)(t, kind, draw).Success?
      ensures PathsDistinct(Engine(cfg)(t, kind, draw).value.system)
    {
      ApplyKeepsPathsDistinct(cfg, t, kind, draw);
    }
  }

  /** Every change keeps the base interfaces. */
  lemma EngineKeepsBase(cfg: Config, base: set<Id>)
    ensures Preserves(Engine(cfg), (t: State) => BaseIntact(t, base))
  {
    forall t: State, kind: ChangeKind, draw: nat | BaseIntact(t, base) && Engine(cfg)(t, kind, draw).Success?
      ensures BaseIntact(Engine(cfg)(t, kind, draw).value, base)
    {
      ApplyKeepsBase(cfg, t, kind, draw, base);
    }
  }

  /** The loop of addChanges over already drawn group sizes. Snapshot g + 1
      (version BaseVersion + g + 1) holds the state after exactly the first
      Boundary(counts, g + 1) changes; the last one, version
      BaseVersion + 18, follows the final change. A change that throws ends
      the run with the snapshots taken so far. */
  method Slice(step: Step, s0: State, counts: seq<nat>, kinds: seq<ChangeKind>, picks: seq<nat>)
    returns (snapshots: seq<Snapshot>, error: Option<Error>)
    requires |counts| == NumIterations
    requires forall g :: 0 <= g < |counts| ==> counts[g] >= 1
    requires |kinds| == Sum(counts) && |picks| == |kinds|
    ensures |snapshots| <= NumIterations
    ensures forall g :: 0 <= g < |snapshots| ==>
      && snapshots[g].version == BaseVersion + g + 1
      && Run(step, s0, kinds, picks, Boundary(counts, g + 1)) == Success(snapshots[g].state)
    ensures error.None? <==> Run(step, s0, kinds, picks, |kinds|).Success?
    ensures error.None? ==> |snapshots| == NumIterations
    ensures error.Some? ==>
      && |snapshots| < NumIterations
      && Run(step, s0, kinds, picks, Boundary(counts, |snapshots| + 1)) == Failure(error.value)
  {
    var state := s0;
    var changeIdx := 0;
    var innerIdx := 0;
    var pos := 0;
    snapshots := [];
    while pos < |kinds|
      invariant pos <= |kinds|
      invariant changeIdx < NumIterations
      invariant innerIdx <= counts[changeIdx]
      invariant pos == Boundary(counts, changeIdx) + innerIdx
      invariant Run(step, s0, kinds, picks, pos) == Success(state)
      invariant |snapshots| == changeIdx
      invariant forall g :: 0 <= g < |snapshots| ==>
        && snapshots[g].version == BaseVersion + g + 1
        && Run(step, s0, kinds, picks, Boundary(counts, g + 1)) == Success(snapshots[g].state)
    {
      BoundaryStep(counts, changeIdx);
      if innerIdx == counts[changeIdx] {
        if changeIdx + 1 == NumIterations {
          assert false;
        }
        changeIdx := changeIdx + 1;
        innerIdx := 0;
        snapshots := snapshots + [Snapshot(BaseVersion + changeIdx, state)];
        BoundaryStep(counts, changeIdx);
      }
      var next := step(state, kinds[pos], picks[pos]);
      RunStep(step, s0, kinds, picks, pos);
      if next.Failure? {
        error := Some(next.error);
        RunFailureSticks(step, s0, kinds, picks, pos + 1, Boundary(counts, changeIdx + 1));
        RunFailureSticks(step, s0, kinds, picks, pos + 1, |kinds|);
        return;
      }
      state := next.value;
      innerIdx := innerIdx + 1;
      pos := pos + 1;
    }
    if changeIdx + 1 < NumIterations {
      BoundaryStep(counts, changeIdx);
      BoundaryStrict(counts, changeIdx + 1, NumIterations);
      assert false;
    }
    snapshots := snapshots + [Snapshot(BaseVersion + NumIterations, state)];
    error := None;
  }

  /** addChanges: draw the 18 group sizes, then slice the plan into
      snapshots, starting from the loaded model. */
  method AddChanges(step: Step, sys: SystemModel, ann: SystemAnnotation, sizeDraws: seq<nat>, kinds: seq<ChangeKind>, picks: seq<nat>)
    returns (snapshots: seq<Snapshot>, error: Option<Error>)
    requires |sizeDraws| == NumIterations
    requires |kinds| == Sum(GroupSizes(sizeDraws))
    requires |picks| == |kinds|
    ensures |snapshots| <= NumIterations
    ensures forall g :: 0 <= g < |snapshots| ==>
      && snapshots[g].version == BaseVersion + g + 1
      && Run(step, Initial(sys, ann), kinds, picks, Boundary(GroupSizes(sizeDraws), g + 1)) == Success(snapshots[g].state)
    ensures error.None? <==> Run(step, Initial(sys, ann), kinds, picks, |kinds|).Success?
    ensures error.None? ==> |snapshots| == NumIterations
    ensures error.Some? ==>
      && |snapshots| < NumIterations
      && Run(step, Initial(sys, ann), kinds, picks, Boundary(GroupSizes(sizeDraws), |snapshots| + 1)) == Failure(error.value)
  {
    snapshots, error := Slice(step, Initial(sys, ann), GroupSizes(sizeDraws), kinds, picks);
  }

  /** addChanges with the engine's changes: the snapshots of AddChanges,
      each of which keeps distinct paths (when the loaded model had them)
      and every interface of the loaded model. */
  method AddEngineChanges(cfg: Config, sys: SystemModel, ann: SystemAnnotation, sizeDraws: seq<nat>, kinds: seq<ChangeKind>, picks: seq<nat>)
    returns (snapshots: seq<Snapshot>, error: Option<Error>)
    requires |sizeDraws| == NumIterations
    requires |kinds| == Sum(GroupSizes(sizeDraws))
    requires |picks| == |kinds|
    ensures |snapshots| <= NumIterations
    ensures forall g :: 0 <= g < |snapshots| ==>
      && snapshots[g].version == BaseVersion + g + 1
      && Run(Engine(cfg), Initial(sys, ann), kinds, picks, Boundary(GroupSizes(sizeDraws), g + 1)) == Success(snapshots[g].state)
    ensures error.None? <==> |snapshots| == NumIterations
    ensures PathsDistinct(sys) ==> forall g :: 0 <= g < |snapshots| ==> PathsDistinct(snapshots[g].state.system)
    ensures forall g :: 0 <= g < |snapshots| ==> InterfaceIds(sys) <= InterfaceIds(snapshots[g].state.system)
  {
    snapshots, error := AddChanges(Engine(cfg), sys, ann, sizeDraws, kinds, picks);
    SnapshotInvariants(cfg, sys, ann, kinds, picks, GroupSizes(sizeDraws), snapshots);
  }

  /** Every snapshot of a run keeps distinct paths (when the loaded model
      had them) and every interface of the loaded model. */
  lemma SnapshotInvariants(cfg: Config, sys: SystemModel, ann: SystemAnnotation, kinds: seq<ChangeKind>, picks: seq<nat>,
                           counts: seq<nat>, snapshots: seq<Snapshot>)
    requires |picks| == |kinds| && |snapshots| <= |counts| && Sum(counts) == |kinds|
    requires forall g :: 0 <= g < |snapshots| ==>
      Run(Engine(cfg), Initial(sys, ann), kinds, picks, Boundary(counts, g + 1)) == Success(snapshots[g].state)
    ensures PathsDistinct(sys) ==> forall g :: 0 <= g < |snapshots| ==> PathsDistinct(snapshots[g].state.system)
    ensures forall g :: 0 <= g < |snapshots| ==> InterfaceIds(sys) <= InterfaceIds(snapshots[g].state.system)
  {
    var s0 := Initial(sys, ann);
    var base := InterfaceIds(sys);
    var intact := (t: State) => BaseIntact(t, base);
    EngineKeepsBase(cfg, base);
    SnapshotsKeep(Engine(cfg), intact, s0, kinds, picks, counts, snapshots);
    if PathsDistinct(sys) {
      var paths := (t: State) => PathsDistinct(t.system);
      EngineKeepsPathsDistinct(cfg);
      SnapshotsKeep(Engine(cfg), paths, s0, kinds, picks, counts, snapshots);
    }
  }

  /** An invariant every step preserves holds of every snapshot. */
  lemma SnapshotsKeep(step: Step, inv: State -> bool, s0: State, kinds: seq<ChangeKind>, picks: seq<nat>,
                      counts: seq<nat>, snapshots: seq<Snapshot>)
    requires |picks| == |kinds| && |snapshots| <= |counts| && Sum(counts) == |kinds|
    requires Preserves(step, inv) && inv(s0)
    requires forall g :: 0 <= g < |snapshots| ==>
      Run(step, s0, kinds, picks, Boundary(counts, g + 1)) == Success(snapshots[g].state)
    ensures forall g :: 0 <= g < |snapshots| ==> inv(snapshots[g].state)
  {
    forall g | 0 <= g < |snapshots|
      ensures inv(snapshots[g].state)
    {
      var n := Boundary(counts, g + 1);
      assert n <= |kinds|;
      assert Run(step, s0, kinds, picks, n) == Success(snapshots[g].state);
      RunKeeps(step, inv, s0, kinds, picks, n);
    }
  }
}

=== FILE: wrappers.dfy ===
/** Failure-compatible Option and Result types used across the model. */
module Wrappers {

  datatype Option<+T> = None | Some(value: T) {
    predicate IsFailure() {
      None?
    }

    function PropagateFailure<U>(): Option<U>
      requires None?
    {
      None
    }

    function Extract(): T
      requires Some?
    {
      value
    }
  }

  datatype Result<+R, +E> = Success(value: R) | Failure(error: E) {
    predicate IsFailure() {
      Failure?
    }

    function PropagateFailure<U>(): Result<U, E>
      requires Failure?
    {
      Failure(error)
    }

    function Extract(): R
      requires Success?
    {
      value
    }
  }
}
